=== FILE: README.md ===
# Volunteer dispatch core, modelled in Dafny

This project models the core of a volunteer-dispatch service. The service matches people
who ask for help (requests, kept in an Airtable "Requests" table) with volunteers (a
"Volunteers" table). The model covers four parts:

- **Task catalog and matching** (`task.dfy`, module `Tasks`).
  - A task has a label, a list of capability prefixes and a list of other requirements.
  - A volunteer can fulfil a task when both of these hold:
    - the task lists no prefix, or one of the volunteer's declared capabilities starts with one of its prefixes;
    - the task lists no other requirement, or one of them holds.
  - The seven catalog tasks and the label-to-task lookup are modelled as well.
- **Volunteer record** (`volunteer_record.dfy`, module `VolunteerRecords`).
  - A wrapper around a store record.
  - It exposes the record's id and fields.
  - The full address is the street address, then the dispatch city and state.
  - It also exposes the cached coordinates and the address they were resolved for.
- **Request service** (`request_service.dfy`, module `RequestServices`).
  - Resolving and caching a request's coordinates.
  - Splitting a request with N tasks into N requests labelled "k of N".
  - Counting open requests per connected volunteer over a paged query.
- **Volunteer service** (`volunteer_service.dfy`, module `VolunteerServices`).
  - Resolving a volunteer's coordinates.
  - Collecting, page by page, the volunteers able to handle loneliness tasks.
  - Sampling at most ten of those volunteers.

Shared pieces:

- `coordinate_resolution.dfy` holds the parts both services share:
  - the cache guard: coordinates present, and the marker address absent, blank or current;
  - the refresh protocol: geocode, then update the store; each failure is logged, recorded in an audit table and re-raised.
- `collaborators.dfy` models the outside world as one `Backend` object: the geocoder, the record store, the logger and the audit table.
  - It has a store state and a trace of the calls made.
  - Each call's outcome is chosen nondeterministically, within what the store's state allows.
  - The services are specified by predicates over the calls they add to the trace (`IsRefresh`, `IsSplit`) and by the store state those calls produce (`Run`).
  - A `Random` object stands for the sampler.
- `airtable.dfy` models record fields and the JavaScript truthiness and display rules the source relies on.
- `strings.dfy` holds the string helpers: prefix test, ECMAScript `trim`, and decimal rendering.
- `config.dfy` fixes the deployment settings to placeholder constants.

## Model

| member | source | states |
|---|---|---|
| Tasks.NewTask | src/task.js:15-23 | a task is built exactly when the label is non-empty, and then keeps the label and both requirement lists as given |
| Tasks.DoesVolunteerHaveACar | src/task.js:59-67 | the result is truthy exactly when the volunteer's transportation answer is truthy, and is then that answer itself |
| Tasks.CanBeFulfilledIff | src/task.js:35-52 | a volunteer matches iff (no prefixes, or some capability starts with some prefix) and (no other requirement, or some requirement holds) |
| Tasks.NoRequirementsMatchEveryone | src/task.js:42-51 | a task with no prefixes and no other requirements is fulfilled by every volunteer |
| Tasks.MissingCapabilitiesFailPrefixTasks | src/task.js:38-46 | a volunteer without a capabilities field matches no task that lists a prefix |
| Tasks.PrefixMatchSuffices | src/task.js:40-46 | one capability starting with one prefix is enough to match a task with no other requirement |
| Tasks.MoreCapabilitiesKeepMatch | src/task.js:42-51 | of two volunteers with the same transportation answer, the one declaring at least the other's capabilities matches every task the other matches |
| Tasks.SubsumedPrefixesKeepMatch | src/task.js:43-46 | for two tasks without other requirements, where the first lists at least one prefix and the second lists all of the first's prefixes, the second matches every volunteer the first matches |
| Tasks.OtherSubsumesPrefixTasks | src/task.js:69-119 | every volunteer matching grocery shopping, prescription pickup, dog walking, loneliness or health information also matches "Other" |
| Tasks.MedicalTransportationNeedsOnlyACar | src/task.js:75-79 | medical-appointment transportation matches exactly the volunteers whose transportation answer is truthy |
| Tasks.OtherMissesCarOnlyVolunteer | src/task.js:75-119 | a volunteer with a car and no declared capabilities matches medical transportation but not "Other" |
| Tasks.CatalogWellFormed | src/task.js:69-128 | every catalog task passes the constructor's checks and catalog labels are pairwise distinct |
| Tasks.EqualsIsCatalogIdentity | src/task.js:54-56 | two catalog tasks are equal by label iff they are the same catalog entry |
| Tasks.LoadCache | src/task.js:129-132 | the loop filling the cache yields the label-to-task map of the task list, later entries overriding earlier ones |
| Tasks.BuildCacheContents | src/task.js:129-132 | for distinct labels, the cache holds exactly the listed labels and maps each to its task |
| Tasks.MapFromRawTaskSpec | src/task.js:133 | the intended lookup finds a task iff some catalog task has that label, and then returns that task |
| Tasks.MapFromRawTask | src/task.js:133 | definition: the intended lookup, the dictionary entry for the label or nothing |
| Tasks.MapFromRawTaskAsWritten | src/task.js:129-133 | definition: the plain-object lookup, an own entry, else a member inherited from `Object.prototype`, else `undefined` |
| Tasks.CatalogAvoidsPrototypeKeys | src/task.js:69-128 | no catalog label is a property name inherited from `Object.prototype` |
| Tasks.MapFromRawTaskAsWrittenAgrees | src/task.js:129-133 | the lookup as written agrees with the intended one on every label that is not an inherited property name, and on those returns the inherited member where the intended lookup returns nothing |
| Tasks.ConstructorLabelFindsInheritedMember | src/task.js:129-133 | the label "constructor" finds an inherited member as written and nothing as intended |
| Tasks.Capabilities | src/task.js:38-39 | definition: the list in the capabilities field, or the empty list when it is absent |
| Tasks.CanBeFulfilledByVolunteer | src/task.js:35-52 | definition: the nested `some` over prefixes and capabilities, and over the other requirements, each skipped when its list is empty; characterised by `Tasks.CanBeFulfilledIff` |
| Tasks.Equals | src/task.js:54-56 | definition: two tasks are equal when their labels are; characterised on the catalog by `Tasks.EqualsIsCatalogIdentity` |
| Tasks.BuildCache | src/task.js:129-132 | definition: the label-to-task map of a task list, later entries overriding earlier ones; characterised by `Tasks.BuildCacheContents` |
| VolunteerRecords.VolunteerRecord.Get | src/model/volunteer-record.js:18-20 | definition: the wrapped record's field, if present |
| VolunteerRecords.VolunteerRecord.Id | src/model/volunteer-record.js:27-29 | definition: the wrapped record's id |
| VolunteerRecords.VolunteerRecord.RawFields | src/model/volunteer-record.js:36-38 | definition: the wrapped record's fields |
| VolunteerRecords.VolunteerRecord.FullAddress | src/model/volunteer-record.js:45-51 | definition: the displayed street address, a space, the dispatch city, a comma and space, and the dispatch state |
| VolunteerRecords.VolunteerRecord.Coordinates | src/model/volunteer-record.js:58-60 | definition: the parsed coordinates field |
| VolunteerRecords.VolunteerRecord.CoordinatesAddress | src/model/volunteer-record.js:68-70 | definition: the coordinates-address marker field |
| VolunteerRecords.GettersExposeRecord | src/model/volunteer-record.js:18-38 | `get`, `id` and `rawFields` expose the wrapped record unchanged, and the coordinates address is the marker field |
| VolunteerRecords.FullAddressShape | src/model/volunteer-record.js:45-51 | the full address is the displayed street address followed by " city, state" |
| VolunteerRecords.FullAddressDeterminedByAddress | src/model/volunteer-record.js:45-51 | two volunteers have the same full address iff their street addresses display the same |
| VolunteerRecords.FullAddressNotBlank | src/model/volunteer-record.js:45-51 | a full address never trims to the empty string |
| VolunteerRecords.CoordinatesNeedSerializedField | src/model/volunteer-record.js:58-60 | coordinates are available iff the coordinates field holds serialized coordinates |
| Airtable.ParseCoordinates | src/model/volunteer-record.js:58-60 | parsing succeeds exactly on serialized coordinates and returns what was serialized |
| Strings.TrimEmptyIff | src/service/request-service.js:33 | a marker trims to length zero iff it consists of whitespace only |
| CoordinateResolution.CacheIsValid | src/service/request-service.js:29-40 | definition: coordinates are present and the marker is absent, blank after trimming or equal to the full address; a non-text marker (which makes `.trim()` throw) is a miss |
| Collaborators.Backend.GetCoords | src/service/request-service.js:43 | the geocoder call is recorded in the trace and leaves the store unchanged |
| Collaborators.Backend.Update | src/service/request-service.js:63-66 | the store update is recorded; it fails for an unknown id, and on success returns the record with the changes merged, which the store then holds |
| Collaborators.Backend.Create | src/service/request-service.js:122 | the batch create is recorded; on success the records are stored at fresh consecutive ids and returned in order |
| Collaborators.Backend.NextPage | src/service/request-service.js:156 | the next-page request is recorded and leaves the store unchanged |
| Collaborators.Backend.LogError | src/service/request-service.js:46-50 | the log line is recorded and leaves the store unchanged |
| Collaborators.Backend.LogErrorToTable | src/service/request-service.js:51-56 | the audit row (table, record, error, step) is recorded and leaves the store unchanged |
| CoordinateResolution.Refresh | src/service/request-service.js:41-85 | the refresh makes the calls `IsRefresh` describes (geocode; update on success; log and audit row on each failure) and the store ends as those calls leave it |
| CoordinateResolution.RefreshCallCounts | src/service/request-service.js:41-85 | a refresh geocodes exactly once and writes to the store once if the geocode succeeds, never otherwise |
| CoordinateResolution.RefreshStoreEffect | src/service/request-service.js:61-85 | a failed refresh leaves the store unchanged; a successful one changes only the refreshed record |
| CoordinateResolution.RefreshFillsCache | src/service/request-service.js:63-66 | the updated record carries the new coordinates and the address marker, keeps every other field, and passes the guard |
| CoordinateResolution.RefreshFailureAudited | src/service/request-service.js:44-83 | a failed refresh ends with a log line and an audit row naming the table, record, error and failed step |
| RequestServices.RequestService.constructor | src/service/request-service.js:13-17 | the service keeps the given store |
| RequestServices.RequestService.ResolveAndUpdateCoords | src/service/request-service.js:26-86 | a cache hit returns the request with no call; a miss performs a refresh logged to the requests table and returns its result |
| RequestServices.ResolvedRequestIsCached | src/service/request-service.js:29-37 | a request returned by a successful refresh passes the guard, so resolving it again is a no-op |
| Strings.NatToStringInjective | src/service/request-service.js:104 | distinct numbers render to distinct decimal strings |
| RequestServices.OrderLabelInjective | src/service/request-service.js:104-114 | the "k of N" labels for distinct positions differ |
| RequestServices.SplitChanges | src/service/request-service.js:101-105 | definition: the update of the original, with the first task alone, the full list archived and the label "1 of N" |
| RequestServices.CloneRequestFieldsWithGivenTask | src/service/request-service.js:115-119 | definition: the request's fields with "Tasks" set to the one task and "Task Order" set to the label |
| RequestServices.Clones | src/service/request-service.js:113-120 | definition: one clone per task after the first, labelled "k+2 of N" |
| RequestServices.SplitPlacesEachTask | src/service/request-service.js:101-120 | the original keeps the first task, archives the full list and is labelled "1 of N"; clone k carries task k+1, is labelled "k+2 of N" and keeps every other field |
| RequestServices.SplitLabelsDistinct | src/service/request-service.js:104-114 | the N pieces of a split carry pairwise distinct order labels |
| RequestServices.RequestService.SplitMultiTaskRequest | src/service/request-service.js:95-131 | the split makes the calls `IsSplit` describes (no call with fewer than two tasks, update then batch create otherwise) and the store ends as those calls leave it |
| RequestServices.SplitFailureChangesNothing | src/service/request-service.js:96-112 | a split that fails (precondition or update) leaves the store unchanged and creates nothing |
| RequestServices.SplitUpdatesOriginal | src/service/request-service.js:100-105 | a split that returns normally has merged the split changes into the original record |
| RequestServices.SplitCreateFailureSwallowed | src/service/request-service.js:121-130 | a failed batch create is logged and swallowed: the split returns normally with only the original updated |
| RequestServices.SplitAddsClones | src/service/request-service.js:121-122 | a successful create adds the N-1 clones at fresh ids in task order and keeps every existing record |
| RequestServices.ConnectedVolunteers | src/service/request-service.js:148 | one volunteer reference is taken per record; characterised by `RequestServices.ConnectedVolunteersAt` |
| RequestServices.ConnectedVolunteersAt | src/service/request-service.js:148 | reference i is the first entry of record i's "Connected Volunteer" list |
| RequestServices.Tally | src/service/request-service.js:147-155 | definition: the per-reference counts, built one reference at a time as the loop does; characterised by `RequestServices.TallyCounts` |
| RequestServices.TallyCounts | src/service/request-service.js:147-155 | the tally has a key iff that reference occurs, and maps it to its number of occurrences |
| RequestServices.TallySum | src/service/request-service.js:147-155 | the counts add up to the number of records counted |
| RequestServices.CountPage | src/service/request-service.js:147-155 | counting one page extends the tally of the records seen so far to the tally including the page |
| RequestServices.RequestService.GetVolunteerTaskCounts | src/service/request-service.js:138-159 | the result is the tally of connected volunteers over all pages, one next-page request per page, and the store is unchanged |
| VolunteerServices.VolunteerService.constructor | src/service/volunteer-service.js:15-20 | the service keeps the given store and owns a fresh sampler |
| VolunteerServices.VolunteerService.ResolveAndUpdateCoords | src/service/volunteer-service.js:29-88 | a cache hit returns the volunteer with no call; a miss performs a refresh audited under the requests table and always ends in a failure |
| VolunteerServices.AsWrittenLosesCommittedUpdate | src/service/volunteer-service.js:64-87 | when the update succeeds, the store holds the new coordinates but the call reports the missing-class error |
| VolunteerServices.AsWrittenAuditsRequestsTable | src/service/volunteer-service.js:54-82 | a failed volunteer refresh files its audit row under the requests table, not the volunteers table |
| VolunteerServices.VolunteerService.ResolveAndUpdateCoordsIntended | src/service/volunteer-service.js:29-88 | corrected resolution: a miss performs a refresh audited under the volunteers table and returns the updated volunteer |
| VolunteerServices.IntendedResultMatchesStore | src/service/volunteer-service.js:44-87 | the corrected result is what the store holds: the updated volunteer on success, an unchanged store and a volunteers-table audit row on failure |
| VolunteerServices.RefreshedVolunteerIsCached | src/service/volunteer-service.js:33-40 | for a volunteer that is the store's current record, a successful refresh keeps its full address and passes the guard, so resolving it again is a no-op |
| VolunteerServices.ChangedAddressForcesRefresh | src/service/volunteer-service.js:33-40 | once the street address changes, coordinates cached for the old address fail the guard |
| VolunteerServices.LonelinessVolunteers | src/service/volunteer-service.js:99-101 | definition: the volunteers of a page that can fulfil the loneliness task, in page order by construction; membership and multiplicities characterised by `VolunteerServices.LonelinessVolunteersSpec` |
| VolunteerServices.LonelinessVolunteersSpec | src/service/volunteer-service.js:99-101 | the selection keeps exactly the volunteers who can fulfil the loneliness task, each as often as it occurs |
| VolunteerServices.LonelinessVolunteersAppend | src/service/volunteer-service.js:111-118 | selecting page by page equals selecting over the concatenated pages |
| VolunteerServices.VolunteerService.AppendVolunteersForLoneliness | src/service/volunteer-service.js:97-104 | the callback appends the page's eligible volunteers after the existing entries, then asks for the next page |
| VolunteerServices.VolunteerService.FindVolunteersForLoneliness | src/service/volunteer-service.js:111-122 | the sample has min(10, number eligible) volunteers, drawn without replacement from the eligible ones; the store is unchanged |
| Collaborators.Random.Sample | src/service/volunteer-service.js:121 | the sample has the requested size and is a sub-multiset of the population |

## Left out

- Other requirements of a task are JavaScript closures in the source. They are modelled as a datatype of named requirements, because only one exists (the volunteer has a car). This lets tasks be compared as values.
- A capabilities field holding something other than a list reads as no capabilities. In the source, a truthy non-list value would make `.some` throw.
- Airtable.ParseCoordinates: serialized coordinates are modelled as a field value of their own, and any other content of the coordinates field reads as unparseable. In the source, stored text that parses to some other truthy JSON value (such as `1`, `[]` or `{}`) makes the coordinates truthy, so the cache guard can pass; the model treats such content as a cache miss. Coordinates are integers; the JSON text format and floating point are not modelled.
- Record ids are natural numbers, and the store assigns consecutive fresh ids on create. Airtable's string ids are not modelled.
- `src/model/request-record.js` is not part of this model. A request record carries its full address as a value, and `request.tasks` is read as the labels in the record's "Tasks" field.
- RequestServices.RequestService.ResolveAndUpdateCoords: the returned record keeps the full address it was given instead of recomputing it. The update does not touch the address fields, so the two agree.
- `cloneRequestFieldsWithGivenTask` (airtable-utils) is not part of this model. A clone is the original's fields with "Tasks" replaced by the one task and "Task Order" set.
- Log message texts, `console.log`, JSON serialization of errors and the asynchronous scheduling of calls are not modelled. Logging appears only as a `LogError` call in the trace.
- The paged queries (view name, `filterByFormula`) run in the store. Their pages are inputs here.
  - For the task counts, every record on a page is required to have a non-completed status and a non-empty list of connected volunteers, which is what the query's formula guarantees.
  - For loneliness, disabled accounts are assumed already filtered out.
- Collaborators.Random.Sample: only the sample size and drawing without replacement are stated. The cryptographic random source and the uniform distribution are not modelled.
- Deployment settings (dispatch city and state, table and view names) are placeholder constants. No proved property depends on their values, except that the requests and volunteers tables differ.
- The `preconditions` argument checks on types (object, string, array, function) have no counterpart, because the Dafny types already enforce them. The two value checks are modelled as error outcomes: a non-empty task label (`Tasks.NewTask` yields nothing) and `request.tasks.length > 1` (the split's error outcome).
- Tasks.NewTask: the default value `[]` of the task constructor's third argument is not a separate entry point; callers pass the arbitrary requirements explicitly, and the catalog passes `[]` where the source omits the argument.
- Tasks.MapFromRawTask: the dictionary is modelled as a map without inherited keys; the source's plain-object behaviour is `Tasks.MapFromRawTaskAsWritten` (see Findings).
- Tasks.BuildCache: a task labelled `__proto__` would, in the source, replace the dictionary's prototype instead of adding an entry; the model adds it as an ordinary entry. No catalog label is an inherited property name (`Tasks.CatalogAvoidsPrototypeKeys`), so the catalog's dictionary is unaffected.
- RequestServices.RequestService.GetVolunteerTaskCounts: a rejected page query (`eachPage` failing) makes the source reject with no counts; the model's page sequence always succeeds, so this failure path is not modelled.
- VolunteerServices.VolunteerService.FindVolunteersForLoneliness: a rejected page query makes the source reject with no sample; as above, this failure path is not modelled.
- RequestServices.IsSplit: the source logs a failed clone create only when the rejection value is truthy; every modelled error is a value, so a failed create is always logged, and a falsy rejection value is not modelled.

## Findings

| source | as written | input that shows it | evidently intended | confidence | as-written member | corrected member |
|---|---|---|---|---|---|---|
| src/service/volunteer-service.js:87 | returns `new RequestRecord(updatedRecord)`, but the module never imports `RequestRecord` (line 8 imports only `VolunteerRecord`) | any volunteer whose guard fails and whose geocode and update both succeed: the store is updated, then the call throws a ReferenceError | return the updated record wrapped as a volunteer record | high; not executed | VolunteerServices.AsWrittenLosesCommittedUpdate | VolunteerServices.IntendedResultMatchesStore |
| src/service/volunteer-service.js:54-82 | both failure paths record the audit row under the requests table name | any volunteer whose geocode fails: the audit row names the requests table and a volunteer's record id | record volunteer failures under the volunteers table | medium; not executed | VolunteerServices.AsWrittenAuditsRequestsTable | VolunteerServices.IntendedResultMatchesStore |
| src/task.js:129-133 | the dictionary is a plain object literal indexed with `cache[rawTask]` | `Task.mapFromRawTask("constructor")` yields the inherited `Object` function, not `undefined` | unknown labels yield no task | medium; not executed | Tasks.ConstructorLabelFindsInheritedMember | Tasks.MapFromRawTaskSpec |

=== FILE: airtable.dfy ===
/** The shape of records in the tabular store: an id and a map from field names to
    values. A field that is empty in the store is absent from the map, which is how
    `record.get(field)` comes to return `undefined`. */
module Airtable {
  import opened Wrappers
  import opened Strings

  /** Store-assigned record identifier. */
  type RecordId = nat

  /** A geographic position as the geocoder returns it. */
  datatype Coords = Coords(latitude: int, longitude: int)

  /** The field values the core reads or writes. `SerializedCoords` is the text that
      serialising a coordinate pair produces; the model keeps it apart from other text. */
  datatype FieldValue =
    | Text(text: string)
    | Items(items: seq<string>)
    | Checkbox(checked: bool)
    | SerializedCoords(coords: Coords)

  type Fields = map<string, FieldValue>

  datatype AirtableRecord = AirtableRecord(id: RecordId, fields: Fields)
  {
    /** `record.get(field)` */
    function Get(field: string): Option<FieldValue>
    {
      if field in fields then Some(fields[field]) else None
    }
  }

  const CoordinatesField := "_coordinates"
  const CoordinatesAddressField := "_coordinates_address"

  /** JavaScript truthiness of a field read: `undefined`, the empty string and `false`
      are falsy; every array, even an empty one, is truthy. */
  predicate Truthy(v: Option<FieldValue>)
  {
    match v
    case None => false
    case Some(Text(s)) => s != ""
    case Some(Items(_)) => true
    case Some(Checkbox(b)) => b
    case Some(SerializedCoords(_)) => true
  }

  /** The serialised text of a coordinate pair. */
  function Serialize(c: Coords): string
  {
    "{\"latitude\":" + IntToString(c.latitude) + ",\"longitude\":" + IntToString(c.longitude) + "}"
  }

  /** What interpolating a field read into a template string prints. */
  function Display(v: Option<FieldValue>): string
  {
    match v
    case None => "undefined"
    case Some(Text(s)) => s
    case Some(Items(l)) => Join(l, ",")
    case Some(Checkbox(b)) => if b then "true" else "false"
    case Some(SerializedCoords(c)) => Serialize(c)
  }

  /** Parsing the coordinate field: succeeds only on serialised coordinates; an absent
      field or any other content fails. */
  function ParseCoordinates(v: Option<FieldValue>): (r: Option<Coords>)
    ensures r.Some? <==> v.Some? && v.value.SerializedCoords?
    ensures r.Some? ==> v == Some(SerializedCoords(r.value))
  {
    match v
    case Some(SerializedCoords(c)) => Some(c)
    case _ => None
  }
}

=== FILE: collaborators.dfy ===
/** The collaborators the core drives: the record store (update, batch create, paging),
    the geocoding provider, the operational logger and the audit-table logger. They are
    seen through one object, `Backend`, whose trace lists every call in order together
    with its outcome; outcomes are chosen nondeterministically, so every property proved
    about a caller holds whatever the collaborators answer. `Random` stands for the
    cryptographically secure sampler. */
module Collaborators {
  import opened Wrappers
  import opened Airtable

  datatype Error =
    | GeocodingFailed(reason: string)
    | StoreFailed(reason: string)
    | IllegalArgument(reason: string)
    | ReferenceError(identifier: string)

  /** The store's contents, and the next id it will assign. */
  datatype StoreState = StoreState(records: map<RecordId, Fields>, nextId: RecordId)
  {
    ghost predicate Valid()
    {
      forall id :: id in records ==> id < nextId
    }
  }

  /** One call on a collaborator, with its outcome. */
  datatype Call =
    | GetCoords(address: string, coordsOutcome: Result<Coords, Error>)
    | Update(id: RecordId, changes: Fields, updateOutcome: Result<AirtableRecord, Error>)
    | Create(batch: seq<Fields>, createOutcome: Result<seq<AirtableRecord>, Error>)
    | NextPage
    | LogError
    | LogErrorToTable(table: string, recordId: RecordId, error: Error, operation: string)

  /** The records a successful batch create adds: consecutive fresh ids, in batch order. */
  function Created(nextId: RecordId, batch: seq<Fields>): seq<AirtableRecord>
  {
    seq(|batch|, k requires 0 <= k < |batch| => AirtableRecord(nextId + k, batch[k]))
  }

  /** What the store answers is consistent with its state: an update succeeds only on an
      existing record and returns it with the changes merged in; a create returns the new
      records. */
  ghost predicate Consistent(s: StoreState, c: Call)
  {
    match c
    case Update(id, changes, Success(u)) =>
      id in s.records && u == AirtableRecord(id, s.records[id] + changes)
    case Update(id, _, Failure(_)) => true
    case Create(batch, Success(rs)) => rs == Created(s.nextId, batch)
    case _ => true
  }

  /** The records map after storing `batch` at consecutive ids from `nextId`. */
  function AddRecords(records: map<RecordId, Fields>, nextId: RecordId, batch: seq<Fields>): map<RecordId, Fields>
    decreases |batch|
  {
    if batch == [] then records else AddRecords(records[nextId := batch[0]], nextId + 1, batch[1..])
  }

  lemma {:induction false} AddRecordsContents(records: map<RecordId, Fields>, nextId: RecordId, batch: seq<Fields>)
    ensures forall id :: id in AddRecords(records, nextId, batch) <==>
              id in records || nextId <= id < nextId + |batch|
    ensures forall id :: id in records && !(nextId <= id < nextId + |batch|) ==>
              AddRecords(records, nextId, batch)[id] == records[id]
    ensures forall k :: 0 <= k < |batch| ==> AddRecords(records, nextId, batch)[nextId + k] == batch[k]
    decreases |batch|
  {
    if batch != [] {
      AddRecordsContents(records[nextId := batch[0]], nextId + 1, batch[1..]);
      forall k | 0 < k < |batch|
        ensures nextId + k in AddRecords(records, nextId, batch) && AddRecords(records, nextId, batch)[nextId + k] == batch[k]
      {
        assert batch[1..][k - 1] == batch[k];
      }
    }
  }

  /** The effect of one call on the store. */
  function Apply(s: StoreState, c: Call): StoreState
  {
    match c
    case Update(id, changes, Success(_)) =>
      if id in s.records then s.(records := s.records[id := s.records[id] + changes]) else s
    case Create(batch, Success(_)) =>
      StoreState(AddRecords(s.records, s.nextId, batch), s.nextId + |batch|)
    case _ => s
  }

  /** The effect of a sequence of calls on the store. */
  function Run(s: StoreState, calls: seq<Call>): StoreState
  {
    if calls == [] then s else Apply(Run(s, calls[..|calls| - 1]), calls[|calls| - 1])
  }

  /** Only successful updates and creates change the store, and they keep ids fresh. */
  lemma ApplyKeepsValid(s: StoreState, c: Call)
    requires s.Valid()
    ensures Apply(s, c).Valid()
    ensures Apply(s, c).nextId >= s.nextId
  {
    if c.Create? {
      AddRecordsContents(s.records, s.nextId, c.batch);
    }
  }

  /** Appending a call to a trace applies it after the calls made since `t0`. */
  lemma RunStep(s0: StoreState, t0: seq<Call>, t: seq<Call>, c: Call)
    requires |t0| <= |t| && t[..|t0|] == t0
    ensures (t + [c])[..|t0|] == t0
    ensures (t + [c])[|t0|..] == t[|t0|..] + [c]
    ensures Run(s0, (t + [c])[|t0|..]) == Apply(Run(s0, t[|t0|..]), c)
  {
  }

  /** Running a short trace is applying its calls in order. */
  lemma RunShort(s: StoreState, a: Call, b: Call, c: Call)
    ensures Run(s, []) == s
    ensures Run(s, [a]) == Apply(s, a)
    ensures Run(s, [a, b]) == Apply(Apply(s, a), b)
    ensures Run(s, [a, b, c]) == Apply(Apply(Apply(s, a), b), c)
  {
    assert [a, b, c][..2] == [a, b];
    assert [a, b][..1] == [a];
    assert [a][..0] == [];
  }

  /** The records of all pages, in page order. */
  function Flatten<T>(pages: seq<seq<T>>): seq<T>
  {
    if pages == [] then [] else Flatten(pages[..|pages| - 1]) + pages[|pages| - 1]
  }

  /** The trace an `eachPage` traversal of `n` pages leaves: one continuation per page. */
  function NextPages(n: nat): seq<Call>
  {
    seq(n, _ => NextPage)
  }

  class Backend {
    var state: StoreState
    var trace: seq<Call>

    ghost predicate Valid()
      reads this
    {
      state.Valid()
    }

    constructor (records: map<RecordId, Fields>, nextId: RecordId)
      requires StoreState(records, nextId).Valid()
      ensures Valid() && state == StoreState(records, nextId) && trace == []
    {
      state := StoreState(records, nextId);
      trace := [];
    }

    /** `getCoords(address)`: may fail. */
    method GetCoords(address: string) returns (r: Result<Coords, Error>)
      requires Valid()
      modifies this
      ensures Valid() && state == old(state)
      ensures trace == old(trace) + [Call.GetCoords(address, r)]
    {
      var ok: bool :| true;
      if ok {
        var latitude: int :| true;
        var longitude: int :| true;
        r := Success(Coords(latitude, longitude));
      } else {
        var reason: string :| true;
        r := Failure(GeocodingFailed(reason));
      }
      trace := trace + [Call.GetCoords(address, r)];
    }

    /** `base.update(id, changes)`: merges the changes into the record; fails on an
        unknown id and may fail on any other. */
    method Update(id: RecordId, changes: Fields) returns (r: Result<AirtableRecord, Error>)
      requires Valid()
      modifies this
      ensures Valid()
      ensures id !in old(state.records) ==> r.Failure?
      ensures Consistent(old(state), Call.Update(id, changes, r))
      ensures state == Apply(old(state), Call.Update(id, changes, r))
      ensures trace == old(trace) + [Call.Update(id, changes, r)]
    {
      var ok: bool :| true;
      if ok && id in state.records {
        r := Success(AirtableRecord(id, state.records[id] + changes));
      } else {
        var reason: string :| true;
        r := Failure(StoreFailed(reason));
      }
      ApplyKeepsValid(state, Call.Update(id, changes, r));
      state := Apply(state, Call.Update(id, changes, r));
      trace := trace + [Call.Update(id, changes, r)];
    }

    /** `base.create(batch)`: adds all records of the batch or none. */
    method Create(batch: seq<Fields>) returns (r: Result<seq<AirtableRecord>, Error>)
      requires Valid()
      modifies this
      ensures Valid()
      ensures Consistent(old(state), Call.Create(batch, r))
      ensures state == Apply(old(state), Call.Create(batch, r))
      ensures trace == old(trace) + [Call.Create(batch, r)]
    {
      var ok: bool :| true;
      if ok {
        r := Success(Created(state.nextId, batch));
      } else {
        var reason: string :| true;
        r := Failure(StoreFailed(reason));
      }
      ApplyKeepsValid(state, Call.Create(batch, r));
      state := Apply(state, Call.Create(batch, r));
      trace := trace + [Call.Create(batch, r)];
    }

    /** The paging continuation handed to an `eachPage` callback. */
    method NextPage()
      requires Valid()
      modifies this
      ensures Valid() && state == old(state)
      ensures trace == old(trace) + [Call.NextPage]
    {
      trace := trace + [Call.NextPage];
    }

    /** `logger.error(...)`; the message text is not modelled. */
    method LogError()
      requires Valid()
      modifies this
      ensures Valid() && state == old(state)
      ensures trace == old(trace) + [Call.LogError]
    {
      trace := trace + [Call.LogError];
    }

    /** `airtableUtils.logErrorToTable(table, record, error, label)`: an audit row. */
    method LogErrorToTable(table: string, recordId: RecordId, error: Error, operation: string)
      requires Valid()
      modifies this
      ensures Valid() && state == old(state)
      ensures trace == old(trace) + [Call.LogErrorToTable(table, recordId, error, operation)]
    {
      trace := trace + [Call.LogErrorToTable(table, recordId, error, operation)];
    }
  }

  /** The secure random source: draws without replacement in an order the model does not
      fix. */
  class Random {
    constructor ()
    {
    }

    /** `random.sample(population, sampleSize)`: `sampleSize` elements taken from distinct
        positions of `population`. */
    method Sample<T>(population: seq<T>, sampleSize: nat) returns (sample: seq<T>)
      requires sampleSize <= |population|
      ensures |sample| == sampleSize
      ensures multiset(sample) <= multiset(population)
    {
      sample := [];
      var rest := population;
      while |sample| < sampleSize
        invariant |sample| <= sampleSize
        invariant |sample| + |rest| == |population|
        invariant multiset(sample) + multiset(rest) == multiset(population)
        decreases sampleSize - |sample|
      {
        var j :| 0 <= j < |rest|;
        assert rest == rest[..j] + [rest[j]] + rest[j + 1..];
        sample := sample + [rest[j]];
        rest := rest[..j] + rest[j + 1..];
      }
    }
  }
}

=== FILE: config.dfy ===
/** Deployment settings the core reads. Their values are set per deployment; the model
    fixes them to placeholder constants. The only fact about them a proof relies on is
    that the requests and volunteers tables have different names. */
module Config {
  const VolunteerDispatchCity: string := "Dispatch City"
  const VolunteerDispatchState: string := "ST"
  const RequestsTableName: string := "Requests"
  const VolunteersTableName: string := "Volunteers"
}

=== FILE: coordinate_resolution.dfy ===
/** The coordinate-resolution workflow both services share: the cache-validity guard,
    and the refresh protocol (geocode the full address, then write the coordinates and
    the address marker to the store, logging and re-throwing any failure). */
module CoordinateResolution {
  import opened Wrappers
  import opened Strings
  import opened Airtable
  import opened Collaborators

  /** Operation labels written to the audit table. */
  const GetCoordsOperation := "getCoords"
  const UpdateCoordinatesOperation := "update _coordinates"

  /** The guard: coordinates parse, and the marker is absent, blank after trimming, or
      equal to the current full address. A marker that is not text makes `.trim()`
      throw inside the guard's `try`, which counts as a miss. */
  predicate CacheIsValid(coordinates: Option<Coords>, marker: Option<FieldValue>, fullAddress: string)
  {
    coordinates.Some? &&
    match marker
    case None => true
    case Some(Text(s)) => |Trim(s)| == 0 || s == fullAddress
    case Some(_) => false
  }

  /** The guard reads the record's own coordinate fields. */
  predicate RecordCacheIsValid(rec: AirtableRecord, fullAddress: string)
  {
    CacheIsValid(ParseCoordinates(rec.Get(CoordinatesField)), rec.Get(CoordinatesAddressField), fullAddress)
  }

  /** The store update a successful geocode leads to. */
  function CoordinateChanges(c: Coords, address: string): Fields
  {
    map[CoordinatesField := SerializedCoords(c), CoordinatesAddressField := Text(address)]
  }

  /** The calls a refresh of record `id` makes, and the result it returns: one geocode of
      `address`; on failure a log line, an audit row labelled "getCoords" and the same
      error; otherwise one update writing the coordinates and the marker; on its failure a
      log line, an audit row labelled "update _coordinates" and the same error; on success
      the updated record. */
  ghost predicate IsRefresh(s: StoreState, calls: seq<Call>, id: RecordId, address: string, table: string,
                            r: Result<AirtableRecord, Error>)
  {
    |calls| >= 1 && calls[0].GetCoords? && calls[0].address == address &&
    match calls[0].coordsOutcome
    case Failure(e) =>
      calls[1..] == [LogError, LogErrorToTable(table, id, e, GetCoordsOperation)] && r == Failure(e)
    case Success(c) =>
      |calls| >= 2 && calls[1].Update? && calls[1].id == id && calls[1].changes == CoordinateChanges(c, address) &&
      Consistent(s, calls[1]) &&
      match calls[1].updateOutcome
      case Failure(e) =>
        calls[2..] == [LogError, LogErrorToTable(table, id, e, UpdateCoordinatesOperation)] && r == Failure(e)
      case Success(u) => |calls| == 2 && r == Success(u)
  }

  /** Calls to the geocoder in a trace. */
  function GeocodeCalls(calls: seq<Call>): nat
  {
    if calls == [] then 0 else (if calls[0].GetCoords? then 1 else 0) + GeocodeCalls(calls[1..])
  }

  /** Writes to the store (updates and creates) in a trace. */
  function StoreWrites(calls: seq<Call>): nat
  {
    if calls == [] then 0 else (if calls[0].Update? || calls[0].Create? then 1 else 0) + StoreWrites(calls[1..])
  }

  /** A refresh geocodes exactly once, and writes to the store exactly once when the
      geocode succeeds and never when it fails. */
  lemma RefreshCallCounts(s: StoreState, calls: seq<Call>, id: RecordId, address: string, table: string,
                          r: Result<AirtableRecord, Error>)
    requires IsRefresh(s, calls, id, address, table, r)
    ensures GeocodeCalls(calls) == 1
    ensures StoreWrites(calls) == if calls[0].coordsOutcome.Success? then 1 else 0
    ensures r.Success? ==> calls[0].coordsOutcome.Success? && calls[1].updateOutcome == r
  {
    var rest := calls[1..];
    assert GeocodeCalls(calls) == 1 + GeocodeCalls(rest);
    if calls[0].coordsOutcome.Failure? {
      assert GeocodeCalls(rest) == 0 + GeocodeCalls(rest[1..]) && GeocodeCalls(rest[1..]) == 0 + GeocodeCalls(rest[2..]);
      assert StoreWrites(rest) == 0 + StoreWrites(rest[1..]) && StoreWrites(rest[1..]) == 0 + StoreWrites(rest[2..]);
      assert rest[2..] == [];
    } else if calls[1].updateOutcome.Failure? {
      var tail := rest[1..];
      assert GeocodeCalls(rest) == 0 + GeocodeCalls(tail) && StoreWrites(rest) == 1 + StoreWrites(tail);
      assert GeocodeCalls(tail) == 0 + GeocodeCalls(tail[1..]) && GeocodeCalls(tail[1..]) == 0 + GeocodeCalls(tail[2..]);
      assert StoreWrites(tail) == 0 + StoreWrites(tail[1..]) && StoreWrites(tail[1..]) == 0 + StoreWrites(tail[2..]);
      assert tail[2..] == [];
    } else {
      assert GeocodeCalls(rest) == 0 + GeocodeCalls(rest[1..]) && StoreWrites(rest) == 1 + StoreWrites(rest[1..]);
      assert rest[1..] == [];
    }
  }

  /** A failed refresh leaves the store as it was; a successful one changes only the
      refreshed record, by merging in the coordinates and the marker. */
  lemma RefreshStoreEffect(s: StoreState, calls: seq<Call>, id: RecordId, address: string, table: string,
                           r: Result<AirtableRecord, Error>)
    requires IsRefresh(s, calls, id, address, table, r)
    ensures r.Failure? ==> Run(s, calls) == s
    ensures r.Success? ==>
              id in s.records && Run(s, calls) == s.(records := s.records[id := r.value.fields])
  {
    var s1 := Run(s, calls[..1]);
    assert calls[..1] == [calls[0]] && calls[..1][..0] == [];
    assert Run(s, []) == s;
    assert s1 == Apply(s, calls[0]) == s;
    if calls[0].coordsOutcome.Failure? {
      assert calls[..2][..1] == calls[..1] && calls[..3][..2] == calls[..2] && calls[..3] == calls;
      assert Run(s, calls[..2]) == Apply(s1, calls[1]) == s;
    } else {
      var s2 := Run(s, calls[..2]);
      assert calls[..2][..1] == calls[..1];
      assert s2 == Apply(s1, calls[1]);
      if calls[1].updateOutcome.Failure? {
        assert s2 == s;
        assert calls[..3][..2] == calls[..2] && calls[..4][..3] == calls[..3] && calls[..4] == calls;
        assert Run(s, calls[..3]) == Apply(s2, calls[2]) == s;
      } else {
        assert calls[..2] == calls;
      }
    }
  }

  /** A successful refresh returns the record with the new coordinates and the address
      marker written and every other field kept; that record then passes the guard for
      the same address, so resolving it again makes no call. */
  lemma RefreshFillsCache(s: StoreState, calls: seq<Call>, id: RecordId, address: string, table: string,
                          r: Result<AirtableRecord, Error>)
    requires IsRefresh(s, calls, id, address, table, r)
    requires r.Success?
    ensures id in s.records && r.value.id == id
    ensures r.value.Get(CoordinatesField) == Some(SerializedCoords(calls[0].coordsOutcome.value))
    ensures r.value.Get(CoordinatesAddressField) == Some(Text(address))
    ensures forall f :: f != CoordinatesField && f != CoordinatesAddressField ==>
              r.value.Get(f) == AirtableRecord(id, s.records[id]).Get(f)
    ensures RecordCacheIsValid(r.value, address)
  {
  }

  /** A failed refresh ends with a log line and then one audit row, in the given table,
      naming the record, the error and the step that failed. */
  lemma RefreshFailureAudited(s: StoreState, calls: seq<Call>, id: RecordId, address: string, table: string,
                              r: Result<AirtableRecord, Error>)
    requires IsRefresh(s, calls, id, address, table, r)
    requires r.Failure?
    ensures |calls| >= 3 && calls[|calls| - 2] == LogError
    ensures calls[|calls| - 1] ==
            LogErrorToTable(table, id, r.error,
                            if calls[0].coordsOutcome.Failure? then GetCoordsOperation else UpdateCoordinatesOperation)
  {
    if calls[0].coordsOutcome.Failure? {
      assert calls == [calls[0]] + calls[1..];
    } else {
      assert calls == calls[..2] + calls[2..];
    }
  }

  /** The refresh protocol, shared by both services. */
  method Refresh(backend: Backend, id: RecordId, address: string, table: string)
    returns (r: Result<AirtableRecord, Error>)
    requires backend.Valid()
    modifies backend
    ensures backend.Valid()
    ensures |old(backend.trace)| <= |backend.trace| && backend.trace[..|old(backend.trace)|] == old(backend.trace)
    ensures IsRefresh(old(backend.state), backend.trace[|old(backend.trace)|..], id, address, table, r)
    ensures backend.state == Run(old(backend.state), backend.trace[|old(backend.trace)|..])
  {
    ghost var s, t := backend.state, backend.trace;
    var coords := backend.GetCoords(address);
    if coords.Failure? {
      backend.LogError();
      backend.LogErrorToTable(table, id, coords.error, GetCoordsOperation);
      r := Failure(coords.error);
      assert backend.trace[|t|..] == [GetCoords(address, coords), LogError,
                                      LogErrorToTable(table, id, coords.error, GetCoordsOperation)];
      RefreshStoreEffect(s, backend.trace[|t|..], id, address, table, r);
      return;
    }
    var updated := backend.Update(id, CoordinateChanges(coords.value, address));
    ghost var afterUpdate := backend.state;
    if updated.Failure? {
      backend.LogError();
      backend.LogErrorToTable(table, id, updated.error, UpdateCoordinatesOperation);
      r := Failure(updated.error);
      assert backend.trace[|t|..] == [GetCoords(address, coords),
                                      Update(id, CoordinateChanges(coords.value, address), updated),
                                      LogError,
                                      LogErrorToTable(table, id, updated.error, UpdateCoordinatesOperation)];
      RefreshStoreEffect(s, backend.trace[|t|..], id, address, table, r);
      return;
    }
    r := updated;
    assert backend.trace[|t|..] == [GetCoords(address, coords),
                                    Update(id, CoordinateChanges(coords.value, address), updated)];
    RefreshStoreEffect(s, backend.trace[|t|..], id, address, table, r);
  }
}

=== FILE: request_service.dfy ===
/** The request service: coordinate resolution for requesters, splitting a request that
    names several tasks into one request per task, and counting each volunteer's open
    tasks. */
module RequestServices {
  import opened Wrappers
  import opened Strings
  import opened Airtable
  import opened Collaborators
  import opened CoordinateResolution
  import Config

  const TasksField := "Tasks"
  const OriginalTasksField := "Original Tasks"
  const TaskOrderField := "Task Order"
  const StatusField := "Status"
  const ConnectedVolunteerField := "Connected Volunteer"

  /** A request as the service reads it. How a request composes its full address is not
      part of this model, so the full address is carried as a value; the coordinate
      getters read the same two fields the refresh writes. */
  datatype RequestRecord = RequestRecord(airtableRequest: AirtableRecord, fullAddress: string)
  {
    function Get(field: string): Option<FieldValue>
    {
      airtableRequest.Get(field)
    }

    function Id(): RecordId
    {
      airtableRequest.id
    }

    function RawFields(): Fields
    {
      airtableRequest.fields
    }

    function Coordinates(): Option<Coords>
    {
      ParseCoordinates(Get(CoordinatesField))
    }

    function CoordinatesAddress(): Option<FieldValue>
    {
      Get(CoordinatesAddressField)
    }

    /** The task labels of the request's "Tasks" field. */
    function Tasks(): seq<string>
    {
      match Get(TasksField)
      case Some(Items(l)) => l
      case _ => []
    }
  }

  /** The store record behind a service result. */
  function Unwrapped(r: Result<RequestRecord, Error>): Result<AirtableRecord, Error>
  {
    match r
    case Success(request) => Success(request.airtableRequest)
    case Failure(e) => Failure(e)
  }

  // Splitting.

  /** The position label "`position` of `count`". */
  function OrderLabel(position: nat, count: nat): string
  {
    NatToString(position) + " of " + NatToString(count)
  }

  /** Number of leading decimal digits of a string. */
  function LeadingDigits(s: string): nat
  {
    if |s| > 0 && IsDigit(s[0]) then 1 + LeadingDigits(s[1..]) else 0
  }

  lemma {:induction false} LeadingDigitsOfNumber(d: string, rest: string)
    requires forall i :: 0 <= i < |d| ==> IsDigit(d[i])
    requires rest != [] && !IsDigit(rest[0])
    ensures LeadingDigits(d + rest) == |d|
  {
    if d != [] {
      assert (d + rest)[1..] == d[1..] + rest;
      LeadingDigitsOfNumber(d[1..], rest);
    } else {
      assert d + rest == rest;
    }
  }

  /** Different positions get different labels. */
  lemma OrderLabelInjective(i: nat, j: nat, n: nat)
    requires OrderLabel(i, n) == OrderLabel(j, n)
    ensures i == j
  {
    var si, sj := NatToString(i), NatToString(j);
    LeadingDigitsOfNumber(si, " of " + NatToString(n));
    LeadingDigitsOfNumber(sj, " of " + NatToString(n));
    assert si + (" of " + NatToString(n)) == OrderLabel(i, n);
    assert sj + (" of " + NatToString(n)) == OrderLabel(j, n);
    assert |si| == |sj|;
    assert si == OrderLabel(i, n)[..|si|] == OrderLabel(j, n)[..|sj|] == sj;
    NatToStringInjective(i, j);
  }

  /** The clone of a request's fields for one task: that task alone, and its position. */
  function CloneRequestFieldsWithGivenTask(fields: Fields, task: string, order: string): Fields
  {
    fields[TasksField := Items([task])][TaskOrderField := Text(order)]
  }

  /** The update that turns the original request into the first piece. */
  function SplitChanges(tasks: seq<string>): Fields
    requires |tasks| > 0
  {
    map[TasksField := Items([tasks[0]]), OriginalTasksField := Items(tasks),
        TaskOrderField := Text(OrderLabel(1, |tasks|))]
  }

  /** The batch of clones, one for each task after the first, in task order. */
  function Clones(fields: Fields, tasks: seq<string>): seq<Fields>
  {
    if |tasks| == 0 then []
    else seq(|tasks| - 1, k requires 0 <= k < |tasks| - 1 =>
               CloneRequestFieldsWithGivenTask(fields, tasks[k + 1], OrderLabel(k + 2, |tasks|)))
  }

  /** Task `p` of the request goes to exactly one piece: the original for `p = 0`, clone
      `p - 1` otherwise, labelled "`p + 1` of N"; the original archives the full list and
      clones keep every other field of the request. */
  lemma SplitPlacesEachTask(fields: Fields, tasks: seq<string>)
    requires |tasks| > 1
    ensures SplitChanges(tasks)[TasksField] == Items([tasks[0]])
    ensures SplitChanges(tasks)[OriginalTasksField] == Items(tasks)
    ensures SplitChanges(tasks)[TaskOrderField] == Text(OrderLabel(1, |tasks|))
    ensures |Clones(fields, tasks)| == |tasks| - 1
    ensures forall k :: 0 <= k < |tasks| - 1 ==>
              Clones(fields, tasks)[k][TasksField] == Items([tasks[k + 1]]) &&
              Clones(fields, tasks)[k][TaskOrderField] == Text(OrderLabel(k + 2, |tasks|))
    ensures forall k, f :: 0 <= k < |tasks| - 1 && f in fields && f != TasksField && f != TaskOrderField ==>
              f in Clones(fields, tasks)[k] && Clones(fields, tasks)[k][f] == fields[f]
  {
    forall k | 0 <= k < |tasks| - 1
      ensures Clones(fields, tasks)[k][TasksField] == Items([tasks[k + 1]])
      ensures forall f :: f in fields && f != TasksField && f != TaskOrderField ==>
                f in Clones(fields, tasks)[k] && Clones(fields, tasks)[k][f] == fields[f]
    {
      CloneLabel(fields, tasks, k);
    }
  }

  /** The position label each clone carries. */
  lemma CloneLabel(fields: Fields, tasks: seq<string>, k: nat)
    requires k < |tasks| - 1
    ensures |Clones(fields, tasks)| == |tasks| - 1
    ensures TaskOrderField in Clones(fields, tasks)[k]
    ensures Clones(fields, tasks)[k][TaskOrderField] == Text(OrderLabel(k + 2, |tasks|))
    ensures Clones(fields, tasks)[k] == CloneRequestFieldsWithGivenTask(fields, tasks[k + 1], OrderLabel(k + 2, |tasks|))
  {
  }

  /** The N pieces carry N pairwise distinct position labels. */
  lemma SplitLabelsDistinct(fields: Fields, tasks: seq<string>)
    requires |tasks| > 1
    ensures forall k :: 0 <= k < |tasks| - 1 ==>
              Clones(fields, tasks)[k][TaskOrderField] != SplitChanges(tasks)[TaskOrderField]
    ensures forall j, k :: 0 <= j < k < |tasks| - 1 ==>
              Clones(fields, tasks)[j][TaskOrderField] != Clones(fields, tasks)[k][TaskOrderField]
  {
    var n := |tasks|;
    var clones := Clones(fields, tasks);
    forall k | 0 <= k < n - 1 ensures clones[k][TaskOrderField] != SplitChanges(tasks)[TaskOrderField] {
      CloneLabel(fields, tasks, k);
      if OrderLabel(k + 2, n) == OrderLabel(1, n) {
        OrderLabelInjective(k + 2, 1, n);
      }
    }
    forall j, k | 0 <= j < k < n - 1 ensures clones[j][TaskOrderField] != clones[k][TaskOrderField] {
      CloneLabel(fields, tasks, j);
      CloneLabel(fields, tasks, k);
      if OrderLabel(j + 2, n) == OrderLabel(k + 2, n) {
        OrderLabelInjective(j + 2, k + 2, n);
      }
    }
  }

  const SplitPreconditionError := IllegalArgument("request.tasks.length > 1")

  /** The calls a split makes and what it returns: with fewer than two tasks, no call and
      a precondition error; otherwise one update of the original; if it fails, a log line
      and that error; if not, one batch create of the clones, a log line if the create
      fails, and a normal return either way. */
  ghost predicate IsSplit(s: StoreState, calls: seq<Call>, request: RequestRecord, r: Outcome<Error>)
  {
    var tasks := request.Tasks();
    if |tasks| <= 1 then calls == [] && r == Fail(SplitPreconditionError)
    else
      |calls| >= 1 && calls[0].Update? && calls[0].id == request.Id() && calls[0].changes == SplitChanges(tasks) &&
      Consistent(s, calls[0]) &&
      match calls[0].updateOutcome
      case Failure(e) => calls[1..] == [LogError] && r == Fail(e)
      case Success(_) =>
        |calls| >= 2 && calls[1].Create? && calls[1].batch == Clones(request.RawFields(), tasks) &&
        Consistent(Apply(s, calls[0]), calls[1]) &&
        calls[2..] == (if calls[1].createOutcome.Failure? then [LogError] else []) && r == Pass
  }

  /** A failed split (precondition or first update) changes nothing in the store and
      attempts no create. */
  lemma SplitFailureChangesNothing(s: StoreState, calls: seq<Call>, request: RequestRecord, r: Outcome<Error>)
    requires IsSplit(s, calls, request, r)
    requires r.Fail?
    ensures Run(s, calls) == s
    ensures forall i :: 0 <= i < |calls| ==> !calls[i].Create?
  {
    if |request.Tasks()| > 1 {
      assert calls == [calls[0], LogError];
      RunShort(s, calls[0], LogError, LogError);
    } else {
      RunShort(s, LogError, LogError, LogError);
    }
  }

  /** A split that returns normally has updated the original request: its tasks become
      the first task alone, the full list is archived and it is labelled "1 of N". */
  lemma SplitUpdatesOriginal(s: StoreState, calls: seq<Call>, request: RequestRecord, r: Outcome<Error>)
    requires IsSplit(s, calls, request, r)
    requires r.Pass?
    ensures |request.Tasks()| > 1 && request.Id() in s.records
    ensures Apply(s, calls[0]) ==
              s.(records := s.records[request.Id() := s.records[request.Id()] + SplitChanges(request.Tasks())])
  {
  }

  /** A failed batch create is swallowed: the call returns normally and the store holds
      only the update of the original. */
  lemma SplitCreateFailureSwallowed(s: StoreState, calls: seq<Call>, request: RequestRecord, r: Outcome<Error>)
    requires IsSplit(s, calls, request, r)
    requires |request.Tasks()| > 1 && calls[0].updateOutcome.Success? && calls[1].createOutcome.Failure?
    ensures r == Pass
    ensures Run(s, calls) == Apply(s, calls[0])
  {
    assert calls == [calls[0], calls[1], LogError];
    RunShort(s, calls[0], calls[1], LogError);
  }

  /** A successful batch create adds the N-1 clones at fresh ids, in task order, and keeps
      every record that was there, including the updated original. */
  lemma SplitAddsClones(s: StoreState, calls: seq<Call>, request: RequestRecord, r: Outcome<Error>)
    requires s.Valid() && IsSplit(s, calls, request, r)
    requires |request.Tasks()| > 1 && calls[0].updateOutcome.Success? && calls[1].createOutcome.Success?
    ensures r == Pass
    ensures Run(s, calls).nextId == s.nextId + |request.Tasks()| - 1
    ensures forall id :: id in s.records ==>
              id in Run(s, calls).records && Run(s, calls).records[id] == Apply(s, calls[0]).records[id]
    ensures forall k :: 0 <= k < |request.Tasks()| - 1 ==>
              s.nextId + k !in s.records && s.nextId + k in Run(s, calls).records &&
              Run(s, calls).records[s.nextId + k] == Clones(request.RawFields(), request.Tasks())[k]
  {
    var s1 := Apply(s, calls[0]);
    assert calls == [calls[0], calls[1]];
    RunShort(s, calls[0], calls[1], LogError);
    AddRecordsContents(s1.records, s1.nextId, calls[1].batch);
  }

  // Counting.

  /** The store filter of the count query: not completed, and connected to a volunteer. */
  predicate SelectedForCounting(rec: AirtableRecord)
  {
    rec.Get(StatusField) != Some(Text("Completed")) &&
    rec.Get(ConnectedVolunteerField).Some? && rec.Get(ConnectedVolunteerField).value.Items? &&
    |rec.Get(ConnectedVolunteerField).value.items| > 0
  }

  predicate AllSelected(records: seq<AirtableRecord>)
  {
    forall i :: 0 <= i < |records| ==> SelectedForCounting(records[i])
  }

  /** `record.get("Connected Volunteer")[0]` */
  function ConnectedVolunteer(rec: AirtableRecord): string
    requires SelectedForCounting(rec)
  {
    rec.Get(ConnectedVolunteerField).value.items[0]
  }

  function ConnectedVolunteers(records: seq<AirtableRecord>): (refs: seq<string>)
    requires AllSelected(records)
    ensures |refs| == |records|
  {
    if records == [] then []
    else ConnectedVolunteers(records[..|records| - 1]) + [ConnectedVolunteer(records[|records| - 1])]
  }

  /** Reference `i` is the first connected volunteer of record `i`. */
  lemma {:induction false} ConnectedVolunteersAt(records: seq<AirtableRecord>)
    requires AllSelected(records)
    ensures forall i :: 0 <= i < |records| ==> ConnectedVolunteers(records)[i] == ConnectedVolunteer(records[i])
  {
    if records != [] {
      ConnectedVolunteersAt(records[..|records| - 1]);
    }
  }

  /** How often `v` occurs in `refs`. */
  function Occurrences(refs: seq<string>, v: string): nat
  {
    if refs == [] then 0
    else Occurrences(refs[..|refs| - 1], v) + (if refs[|refs| - 1] == v then 1 else 0)
  }

  /** The counts the loop builds: one increment per reference, in order. */
  function Tally(refs: seq<string>): map<string, nat>
  {
    if refs == [] then map[]
    else
      var m, v := Tally(refs[..|refs| - 1]), refs[|refs| - 1];
      m[v := if v in m then m[v] + 1 else 1]
  }

  /** Each volunteer with an open task has a count equal to the number of records naming
      them first; no one else appears. */
  lemma {:induction false} TallyCounts(refs: seq<string>)
    ensures forall v :: v in Tally(refs) <==> v in refs
    ensures forall v :: v in Tally(refs) ==> Tally(refs)[v] == Occurrences(refs, v)
    ensures forall v :: v !in refs ==> Occurrences(refs, v) == 0
  {
    if refs != [] {
      var init := refs[..|refs| - 1];
      TallyCounts(init);
      assert refs == init + [refs[|refs| - 1]];
      forall v ensures v in refs <==> v in init || v == refs[|refs| - 1] {
      }
    }
  }

  lemma RemoveKey(m: map<string, nat>, k: string)
    requires k in m
    ensures (m - {k}).Keys == m.Keys - {k}
    ensures |m - {k}| == |m| - 1
  {
    assert (m - {k}).Keys == m.Keys - {k};
  }

  /** Some key of a non-empty map. */
  ghost function PickKey(m: map<string, nat>): (k: string)
    requires |m| > 0
    ensures k in m
  {
    var k :| k in m; k
  }

  /** Sum of the values of a map. */
  ghost function MapSum(m: map<string, nat>): nat
    decreases |m|
  {
    if |m| == 0 then 0
    else
      var k := PickKey(m);
      RemoveKey(m, k);
      m[k] + MapSum(m - {k})
  }

  lemma MapSumRemove(m: map<string, nat>, k: string)
    requires k in m
    ensures MapSum(m) == m[k] + MapSum(m - {k})
    decreases |m|
  {
    var j := PickKey(m);
    if j != k {
      RemoveKey(m, k);
      RemoveKey(m, j);
      var mj, mk := m - {j}, m - {k};
      assert k in mj && mj[k] == m[k];
      assert j in mk && mk[j] == m[j];
      MapSumRemove(mj, k);
      MapSumRemove(mk, j);
      assert mj - {k} == mk - {j};
    }
  }

  /** The counts add up to the number of records counted. */
  lemma {:induction false} TallySum(refs: seq<string>)
    ensures MapSum(Tally(refs)) == |refs|
  {
    if refs != [] {
      var init, v := refs[..|refs| - 1], refs[|refs| - 1];
      var m := Tally(init);
      var next := m[v := if v in m then m[v] + 1 else 1];
      TallySum(init);
      MapSumRemove(next, v);
      assert next - {v} == m - {v};
      if v in m {
        MapSumRemove(m, v);
      } else {
        assert m - {v} == m;
      }
    }
  }

  lemma ConnectedVolunteersStep(done: seq<AirtableRecord>, rec: AirtableRecord)
    requires AllSelected(done) && SelectedForCounting(rec)
    ensures AllSelected(done + [rec])
    ensures ConnectedVolunteers(done + [rec]) == ConnectedVolunteers(done) + [ConnectedVolunteer(rec)]
  {
    assert (done + [rec])[..|done|] == done;
  }

  lemma TallyStep(refs: seq<string>, v: string)
    ensures Tally(refs + [v]) == Tally(refs)[v := if v in Tally(refs) then Tally(refs)[v] + 1 else 1]
  {
    assert (refs + [v])[..|refs|] == refs;
  }

  /** The page callback of the count query: one increment per record, in page order. */
  method CountPage(counts: map<string, nat>, ghost done: seq<AirtableRecord>, records: seq<AirtableRecord>)
    returns (updated: map<string, nat>)
    requires AllSelected(done) && AllSelected(records)
    requires counts == Tally(ConnectedVolunteers(done))
    ensures AllSelected(done + records)
    ensures updated == Tally(ConnectedVolunteers(done + records))
  {
    updated := counts;
    assert done + records[..0] == done;
    for k := 0 to |records|
      invariant AllSelected(done + records[..k])
      invariant updated == Tally(ConnectedVolunteers(done + records[..k]))
    {
      ghost var before := done + records[..k];
      assert done + records[..k + 1] == before + [records[k]];
      ConnectedVolunteersStep(before, records[k]);
      TallyStep(ConnectedVolunteers(before), ConnectedVolunteer(records[k]));
      var volunteerReference := ConnectedVolunteer(records[k]);
      if volunteerReference in updated {
        var amount := updated[volunteerReference];
        updated := updated[volunteerReference := amount + 1];
      } else {
        updated := updated[volunteerReference := 1];
      }
    }
    assert records[..|records|] == records;
  }

  /** Resolution is idempotent: a request returned by a successful refresh passes the
      guard, so resolving it again makes no call and returns it unchanged. */
  lemma ResolvedRequestIsCached(s: StoreState, calls: seq<Call>, request: RequestRecord, table: string,
                                r: Result<RequestRecord, Error>)
    requires IsRefresh(s, calls, request.Id(), request.fullAddress, table, Unwrapped(r))
    requires r.Success? && r.value.fullAddress == request.fullAddress
    ensures r.value.Id() == request.Id()
    ensures CacheIsValid(r.value.Coordinates(), r.value.CoordinatesAddress(), r.value.fullAddress)
  {
    RefreshFillsCache(s, calls, request.Id(), request.fullAddress, table, Unwrapped(r));
  }

  class RequestService {
    const backend: Backend

    constructor (backend: Backend)
      ensures this.backend == backend
    {
      this.backend := backend;
    }

    /** `resolveAndUpdateCoords(request)` */
    method ResolveAndUpdateCoords(request: RequestRecord) returns (r: Result<RequestRecord, Error>)
      requires backend.Valid()
      modifies backend
      ensures backend.Valid()
      ensures |old(backend.trace)| <= |backend.trace| && backend.trace[..|old(backend.trace)|] == old(backend.trace)
      ensures CacheIsValid(request.Coordinates(), request.CoordinatesAddress(), request.fullAddress) ==>
                r == Success(request) && backend.trace == old(backend.trace) && backend.state == old(backend.state)
      ensures !CacheIsValid(request.Coordinates(), request.CoordinatesAddress(), request.fullAddress) ==>
                IsRefresh(old(backend.state), backend.trace[|old(backend.trace)|..], request.Id(),
                          request.fullAddress, Config.RequestsTableName, Unwrapped(r)) &&
                backend.state == Run(old(backend.state), backend.trace[|old(backend.trace)|..])
      ensures r.Success? ==> r.value.fullAddress == request.fullAddress
    {
      if CacheIsValid(request.Coordinates(), request.CoordinatesAddress(), request.fullAddress) {
        return Success(request);
      }
      var updatedRecord := Refresh(backend, request.Id(), request.fullAddress, Config.RequestsTableName);
      match updatedRecord
      case Success(u) => r := Success(RequestRecord(u, request.fullAddress));
      case Failure(e) => r := Failure(e);
    }

    /** `splitMultiTaskRequest(request)` */
    method SplitMultiTaskRequest(request: RequestRecord) returns (r: Outcome<Error>)
      requires backend.Valid()
      modifies backend
      ensures backend.Valid()
      ensures |old(backend.trace)| <= |backend.trace| && backend.trace[..|old(backend.trace)|] == old(backend.trace)
      ensures IsSplit(old(backend.state), backend.trace[|old(backend.trace)|..], request, r)
      ensures backend.state == Run(old(backend.state), backend.trace[|old(backend.trace)|..])
    {
      ghost var s0, t0 := backend.state, backend.trace;
      var tasks := request.Tasks();
      if |tasks| <= 1 {
        assert backend.trace[|t0|..] == [];
        return Fail(SplitPreconditionError);
      }
      assert backend.trace[|t0|..] == [] && Run(s0, []) == s0;
      ghost var t := backend.trace;
      var updated := backend.Update(request.Id(), SplitChanges(tasks));
      RunStep(s0, t0, t, Update(request.Id(), SplitChanges(tasks), updated));
      ghost var s1 := backend.state;
      if updated.Failure? {
        t := backend.trace;
        backend.LogError();
        RunStep(s0, t0, t, LogError);
        return Fail(updated.error);
      }
      var newRecordsPerTask := Clones(request.RawFields(), tasks);
      t := backend.trace;
      var created := backend.Create(newRecordsPerTask);
      RunStep(s0, t0, t, Create(newRecordsPerTask, created));
      if created.Failure? {
        t := backend.trace;
        backend.LogError();
        RunStep(s0, t0, t, LogError);
      }
      r := Pass;
    }

    /** `getVolunteerTaskCounts()`, over the pages the store's query returns. */
    method GetVolunteerTaskCounts(pages: seq<seq<AirtableRecord>>) returns (counts: map<string, nat>)
      requires backend.Valid()
      requires forall p :: 0 <= p < |pages| ==> AllSelected(pages[p])
      modifies backend
      ensures backend.Valid() && backend.state == old(backend.state)
      ensures backend.trace == old(backend.trace) + NextPages(|pages|)
      ensures AllSelected(Flatten(pages))
      ensures counts == Tally(ConnectedVolunteers(Flatten(pages)))
    {
      counts := map[];
      for p := 0 to |pages|
        invariant backend.Valid() && backend.state == old(backend.state)
        invariant backend.trace == old(backend.trace) + NextPages(p)
        invariant AllSelected(Flatten(pages[..p]))
        invariant counts == Tally(ConnectedVolunteers(Flatten(pages[..p])))
      {
        counts := CountPage(counts, Flatten(pages[..p]), pages[p]);
        backend.NextPage();
        assert pages[..p + 1][..p] == pages[..p];
        assert NextPages(p + 1) == NextPages(p) + [NextPage];
      }
      assert pages[..|pages|] == pages;
    }
  }
}

=== FILE: strings.dfy ===
/** The few pieces of JavaScript string behaviour the core relies on:
    `startsWith`, `trim`, decimal rendering of numbers in template strings,
    and `Array.prototype.join`. */
module Strings {

  /** `s.startsWith(prefix)`: prefix match, not equality. */
  predicate StartsWith(s: string, prefix: string)
  {
    |prefix| <= |s| && s[..|prefix|] == prefix
  }

  /** The characters `String.prototype.trim` removes: ECMAScript WhiteSpace and
      LineTerminator code points. */
  predicate IsWhiteSpace(c: char)
  {
    c == '\t' || c == '\n' || c == '\U{000B}' || c == '\U{000C}' || c == '\r' || c == ' ' ||
    c == '\U{00A0}' || c == '\U{1680}' || ('\U{2000}' <= c <= '\U{200A}') ||
    c == '\U{2028}' || c == '\U{2029}' || c == '\U{202F}' || c == '\U{205F}' ||
    c == '\U{3000}' || c == '\U{FEFF}'
  }

  function TrimStart(s: string): string
  {
    if |s| > 0 && IsWhiteSpace(s[0]) then TrimStart(s[1..]) else s
  }

  function TrimEnd(s: string): string
  {
    if |s| > 0 && IsWhiteSpace(s[|s| - 1]) then TrimEnd(s[..|s| - 1]) else s
  }

  /** `s.trim()` */
  function Trim(s: string): string
  {
    TrimEnd(TrimStart(s))
  }

  predicate AllWhiteSpace(s: string)
  {
    forall i :: 0 <= i < |s| ==> IsWhiteSpace(s[i])
  }

  lemma {:induction false} TrimStartEmpty(s: string)
    ensures TrimStart(s) == [] <==> AllWhiteSpace(s)
    ensures TrimStart(s) != [] ==> !IsWhiteSpace(TrimStart(s)[0])
  {
    if |s| > 0 && IsWhiteSpace(s[0]) {
      TrimStartEmpty(s[1..]);
      if AllWhiteSpace(s[1..]) {
        forall i | 0 <= i < |s| ensures IsWhiteSpace(s[i]) {
          if i > 0 { assert s[i] == s[1..][i - 1]; }
        }
      }
      if AllWhiteSpace(s) {
        forall i | 0 <= i < |s| - 1 ensures IsWhiteSpace(s[1..][i]) {
          assert s[1..][i] == s[i + 1];
        }
      }
    }
  }

  lemma {:induction false} TrimEndKeepsHead(s: string)
    requires s != [] && !IsWhiteSpace(s[0])
    ensures TrimEnd(s) != []
  {
    if |s| > 1 && IsWhiteSpace(s[|s| - 1]) {
      TrimEndKeepsHead(s[..|s| - 1]);
    }
  }

  /** `s.trim().length === 0` holds exactly for strings made only of white space. */
  lemma TrimEmptyIff(s: string)
    ensures |Trim(s)| == 0 <==> AllWhiteSpace(s)
  {
    TrimStartEmpty(s);
    if TrimStart(s) != [] {
      TrimEndKeepsHead(TrimStart(s));
    }
  }

  predicate IsDigit(c: char)
  {
    '0' <= c <= '9'
  }

  function DigitChar(d: nat): (c: char)
    requires d < 10
    ensures IsDigit(c)
  {
    (48 + d) as char
  }

  /** Decimal rendering of a natural number, as a template string prints it. */
  function NatToString(n: nat): (r: string)
    ensures |r| >= 1 && (n >= 10 ==> |r| >= 2)
    ensures forall i :: 0 <= i < |r| ==> IsDigit(r[i])
  {
    if n < 10 then [DigitChar(n)] else NatToString(n / 10) + [DigitChar(n % 10)]
  }

  lemma {:induction false} NatToStringInjective(a: nat, b: nat)
    requires NatToString(a) == NatToString(b)
    ensures a == b
  {
    if a >= 10 && b >= 10 {
      var sa, sb := NatToString(a / 10), NatToString(b / 10);
      assert NatToString(a) == sa + [DigitChar(a % 10)];
      assert NatToString(b) == sb + [DigitChar(b % 10)];
      assert |sa| == |sb|;
      assert sa == NatToString(a)[..|sa|] == NatToString(b)[..|sb|] == sb;
      NatToStringInjective(a / 10, b / 10);
      assert DigitChar(a % 10) == NatToString(a)[|sa|] == NatToString(b)[|sb|] == DigitChar(b % 10);
    } else if a < 10 && b < 10 {
      assert DigitChar(a) == NatToString(a)[0] == NatToString(b)[0] == DigitChar(b);
    }
  }

  /** Decimal rendering of an integer, with a leading minus sign when negative. */
  function IntToString(n: int): string
  {
    if n < 0 then "-" + NatToString(-n) else NatToString(n)
  }

  /** `items.join(separator)`; also what interpolating an array in a template string prints
      (with separator ","). */
  function Join(items: seq<string>, separator: string): string
  {
    if |items| == 0 then ""
    else if |items| == 1 then items[0]
    else items[0] + separator + Join(items[1..], separator)
  }
}

=== FILE: task.dfy ===
/** The task taxonomy: the fixed catalog of tasks that help can be requested for, and
    the rule that decides whether a volunteer can fulfil a task. */
module Tasks {
  import opened Wrappers
  import opened Strings
  import opened Airtable

  /** Volunteer field listing the kinds of support they offer. */
  const CapabilitiesField := "I can provide the following support (non-binding)"
  /** Volunteer field recording their private transportation (note the trailing space). */
  const TransportationField := "Do you have a private mode of transportation with valid license/insurance? "

  /** The arbitrary requirements a task may carry, as named predicates over a volunteer. */
  datatype Requirement = VolunteerHasACar

  /** A task: its label in the requests table, the capability prefixes a volunteer must
      offer one of, and the arbitrary requirements of which one must hold. */
  datatype Task = Task(rawTask: string, supportRequirements: seq<string>,
                       otherFulfillmentRequirements: seq<Requirement>)

  /** The constructor's checks: the label must be a non-empty string. */
  predicate ValidTask(t: Task)
  {
    t.rawTask != ""
  }

  /** `new Task(rawTask, supportRequirements, arbitraryRequirements)`; an empty label makes
      the constructor throw. */
  function NewTask(rawTask: string, supportRequirements: seq<string>,
                   arbitraryRequirements: seq<Requirement>): (r: Option<Task>)
    ensures r.Some? <==> rawTask != ""
    ensures r.Some? ==> ValidTask(r.value) && r.value.rawTask == rawTask
    ensures r.Some? ==> r.value.supportRequirements == supportRequirements
    ensures r.Some? ==> r.value.otherFulfillmentRequirements == arbitraryRequirements
  {
    if rawTask == "" then None else Some(Task(rawTask, supportRequirements, arbitraryRequirements))
  }

  /** `Array.prototype.some`: left to right, stopping at the first element that passes. */
  function Any<T>(xs: seq<T>, p: T -> bool): bool
  {
    |xs| > 0 && (p(xs[0]) || Any(xs[1..], p))
  }

  lemma {:induction false} AnyIff<T>(xs: seq<T>, p: T -> bool)
    ensures Any(xs, p) <==> exists i :: 0 <= i < |xs| && p(xs[i])
  {
    if |xs| > 0 {
      AnyIff(xs[1..], p);
      if exists i :: 0 <= i < |xs| && p(xs[i]) {
        var i :| 0 <= i < |xs| && p(xs[i]);
        if i > 0 { assert p(xs[1..][i - 1]); }
      }
      if exists i :: 0 <= i < |xs[1..]| && p(xs[1..][i]) {
        var i :| 0 <= i < |xs[1..]| && p(xs[1..][i]);
        assert p(xs[i + 1]);
      }
    }
  }

  /** The volunteer's declared capabilities; an empty or missing field reads as `[]`. */
  function Capabilities(v: AirtableRecord): seq<string>
  {
    match v.Get(CapabilitiesField)
    case Some(Items(l)) => l
    case _ => []
  }

  /** `doesVolunteerHaveACar`: the transportation field when it is truthy, else `false`. */
  function DoesVolunteerHaveACar(v: AirtableRecord): (r: FieldValue)
    ensures Truthy(Some(r)) <==> Truthy(v.Get(TransportationField))
    ensures Truthy(Some(r)) ==> v.Get(TransportationField) == Some(r)
  {
    if Truthy(v.Get(TransportationField)) then v.Get(TransportationField).value else Checkbox(false)
  }

  /** Evaluates an arbitrary requirement; its result is used for its truthiness. */
  predicate Holds(req: Requirement, v: AirtableRecord)
  {
    match req
    case VolunteerHasACar => Truthy(Some(DoesVolunteerHaveACar(v)))
  }

  /** `task.canBeFulfilledByVolunteer(volunteer)`, written as the source writes it. */
  predicate CanBeFulfilledByVolunteer(t: Task, v: AirtableRecord)
  {
    var capabilities := Capabilities(v);
    (|t.supportRequirements| == 0 ||
      Any(t.supportRequirements, (r: string) => Any(capabilities, (c: string) => StartsWith(c, r)))) &&
    (|t.otherFulfillmentRequirements| == 0 ||
      Any(t.otherFulfillmentRequirements, (req: Requirement) => Holds(req, v)))
  }

  /** The capability clause, stated directly: no prefixes, or some capability starts with
      some required prefix. */
  predicate CapabilityClause(t: Task, capabilities: seq<string>)
  {
    |t.supportRequirements| == 0 ||
    exists i, j :: 0 <= i < |t.supportRequirements| && 0 <= j < |capabilities| &&
      StartsWith(capabilities[j], t.supportRequirements[i])
  }

  /** The arbitrary clause, stated directly: no requirements, or one of them holds. */
  predicate ArbitraryClause(t: Task, v: AirtableRecord)
  {
    |t.otherFulfillmentRequirements| == 0 ||
    exists i :: 0 <= i < |t.otherFulfillmentRequirements| && Holds(t.otherFulfillmentRequirements[i], v)
  }

  /** Matching is exactly the conjunction of the two clauses. */
  lemma CanBeFulfilledIff(t: Task, v: AirtableRecord)
    ensures CanBeFulfilledByVolunteer(t, v) <==>
            CapabilityClause(t, Capabilities(v)) && ArbitraryClause(t, v)
  {
    var capabilities := Capabilities(v);
    var inner := (r: string) => Any(capabilities, (c: string) => StartsWith(c, r));
    AnyIff(t.supportRequirements, inner);
    forall r: string ensures inner(r) <==> exists j :: 0 <= j < |capabilities| && StartsWith(capabilities[j], r) {
      AnyIff(capabilities, (c: string) => StartsWith(c, r));
    }
    AnyIff(t.otherFulfillmentRequirements, (req: Requirement) => Holds(req, v));
  }

  /** A task with neither prefixes nor arbitrary requirements is fulfilled by everyone. */
  lemma NoRequirementsMatchEveryone(t: Task, v: AirtableRecord)
    requires t.supportRequirements == [] && t.otherFulfillmentRequirements == []
    ensures CanBeFulfilledByVolunteer(t, v)
  {
  }

  /** A volunteer without the capability field fails every task that lists prefixes. */
  lemma MissingCapabilitiesFailPrefixTasks(t: Task, v: AirtableRecord)
    requires CapabilitiesField !in v.fields
    requires |t.supportRequirements| > 0
    ensures !CanBeFulfilledByVolunteer(t, v)
  {
    CanBeFulfilledIff(t, v);
  }

  /** Matching is by prefix: a capability that merely starts with a required prefix
      satisfies a prefix-only task. */
  lemma PrefixMatchSuffices(t: Task, v: AirtableRecord, i: nat, j: nat)
    requires t.otherFulfillmentRequirements == []
    requires i < |t.supportRequirements| && j < |Capabilities(v)|
    requires StartsWith(Capabilities(v)[j], t.supportRequirements[i])
    ensures CanBeFulfilledByVolunteer(t, v)
  {
    CanBeFulfilledIff(t, v);
  }

  /** Monotonicity: between two volunteers with the same transportation answer, the one
      offering more capabilities matches every task the other matches. */
  lemma MoreCapabilitiesKeepMatch(t: Task, v: AirtableRecord, w: AirtableRecord)
    requires v.Get(TransportationField) == w.Get(TransportationField)
    requires forall c :: c in Capabilities(v) ==> c in Capabilities(w)
    requires CanBeFulfilledByVolunteer(t, v)
    ensures CanBeFulfilledByVolunteer(t, w)
  {
    CanBeFulfilledIff(t, v);
    CanBeFulfilledIff(t, w);
    forall req: Requirement ensures Holds(req, v) == Holds(req, w) {
    }
    if |t.supportRequirements| > 0 {
      var i, j :| 0 <= i < |t.supportRequirements| && 0 <= j < |Capabilities(v)| &&
        StartsWith(Capabilities(v)[j], t.supportRequirements[i]);
      var c := Capabilities(v)[j];
      assert c in Capabilities(w);
      var k :| 0 <= k < |Capabilities(w)| && Capabilities(w)[k] == c;
      assert StartsWith(Capabilities(w)[k], t.supportRequirements[i]);
    }
  }

  /** A task whose prefixes all appear among another's matches no one the other misses,
      when neither has arbitrary requirements. */
  lemma SubsumedPrefixesKeepMatch(t: Task, u: Task, v: AirtableRecord)
    requires t.otherFulfillmentRequirements == [] && u.otherFulfillmentRequirements == []
    requires |t.supportRequirements| > 0
    requires forall r :: r in t.supportRequirements ==> r in u.supportRequirements
    requires CanBeFulfilledByVolunteer(t, v)
    ensures CanBeFulfilledByVolunteer(u, v)
  {
    CanBeFulfilledIff(t, v);
    CanBeFulfilledIff(u, v);
    var i, j :| 0 <= i < |t.supportRequirements| && 0 <= j < |Capabilities(v)| &&
      StartsWith(Capabilities(v)[j], t.supportRequirements[i]);
    var r := t.supportRequirements[i];
    assert r in u.supportRequirements;
    var k :| 0 <= k < |u.supportRequirements| && u.supportRequirements[k] == r;
    assert StartsWith(Capabilities(v)[j], u.supportRequirements[k]);
  }

  // The catalog.

  const GroceryShopping := Task("Grocery shopping", [
    "Running errands (picking up groceries"
  ], [])
  const PrescriptionPickup := Task("Picking up a prescription", [
    "Running errands (picking up groceries"
  ], [])
  const MedicalApptTransportation := Task("Transportation to/from a medical appointment", [],
    [VolunteerHasACar])
  const DogWalking := Task("Dog walking/petsitting", ["Pet-sitting"], [])
  const Loneliness := Task("Loneliness", [
    "Emotional support (talking on the phone with someone who is worried",
    "Checking in on disabled/elderly relatives nearby"
  ], [])
  const AccessHealthInfo := Task("Accessing verified health information", [
    "Making doctors appointments",
    "Calling about medication refills",
    "Medical response (fielding calls with medical questions)",
    "Signing people up for health insurance"
  ], [])
  /** The catch-all, listing the prefixes of nearly every other task. */
  const Other := Task("Other", [
    "Running errands (picking up groceries",
    "Transportation to/from a medical appointment",
    "Transportation",
    "Pet-sitting",
    "Emotional support (talking on the phone with someone who is worried",
    "Checking in on disabled/elderly relatives nearby",
    "Making doctors appointments",
    "Calling about medication refills",
    "Medical response (fielding calls with medical questions)",
    "Signing people up for health insurance",
    "Translation (please list language in \"other\" box)",
    "Translation (ASL)",
    "Meal preparation",
    "Childcare",
    "Childcare (experienced care for high/special needs children)",
    "Household cleaning (dishwashing",
    "Spare bed/comfortable couch",
    "De-escalation, conflict resolution, peace-building skills",
    "Religious/spiritual ministry (please list faith tradition in \"other\" box)"
  ], [])

  /** `Task.possibleTasks` */
  const PossibleTasks: seq<Task> := [GroceryShopping, PrescriptionPickup, MedicalApptTransportation,
                                     DogWalking, Loneliness, AccessHealthInfo, Other]

  /** Every prefix-only catalog task is matched by no one whom the catch-all misses. */
  lemma OtherSubsumesPrefixTasks(t: Task, v: AirtableRecord)
    requires t == GroceryShopping || t == PrescriptionPickup || t == DogWalking ||
             t == Loneliness || t == AccessHealthInfo
    requires CanBeFulfilledByVolunteer(t, v)
    ensures CanBeFulfilledByVolunteer(Other, v)
  {
    forall r | r in t.supportRequirements ensures r in Other.supportRequirements {
    }
    SubsumedPrefixesKeepMatch(t, Other, v);
  }

  /** The transportation task is decided by the car predicate alone. */
  lemma MedicalTransportationNeedsOnlyACar(v: AirtableRecord)
    ensures CanBeFulfilledByVolunteer(MedicalApptTransportation, v) <==> Truthy(v.Get(TransportationField))
  {
    CanBeFulfilledIff(MedicalApptTransportation, v);
  }

  /** The catch-all does not cover the transportation task: a volunteer with a car and no
      declared capabilities matches it but not "Other". */
  lemma OtherMissesCarOnlyVolunteer()
    ensures var v := AirtableRecord(0, map[TransportationField := Checkbox(true)]);
            CanBeFulfilledByVolunteer(MedicalApptTransportation, v) && !CanBeFulfilledByVolunteer(Other, v)
  {
    var v := AirtableRecord(0, map[TransportationField := Checkbox(true)]);
    assert TransportationField != CapabilitiesField;
    MedicalTransportationNeedsOnlyACar(v);
    MissingCapabilitiesFailPrefixTasks(Other, v);
  }

  /** Catalog entries pass the constructor's checks and have pairwise distinct labels. */
  lemma CatalogWellFormed()
    ensures forall i :: 0 <= i < |PossibleTasks| ==> ValidTask(PossibleTasks[i])
    ensures forall i, j :: 0 <= i < j < |PossibleTasks| ==> PossibleTasks[i].rawTask != PossibleTasks[j].rawTask
  {
  }

  /** `task.equals(other)`: identity is the label alone. */
  predicate Equals(t: Task, other: Task)
  {
    t.rawTask == other.rawTask
  }

  /** Within the catalog, label equality coincides with being the same entry. */
  lemma EqualsIsCatalogIdentity(i: nat, j: nat)
    requires i < |PossibleTasks| && j < |PossibleTasks|
    ensures Equals(PossibleTasks[i], PossibleTasks[j]) <==> i == j
  {
    CatalogWellFormed();
  }

  /** The label-to-task dictionary filled at load time: later entries overwrite earlier ones. */
  function BuildCache(tasks: seq<Task>): map<string, Task>
  {
    if tasks == [] then map[]
    else BuildCache(tasks[..|tasks| - 1])[tasks[|tasks| - 1].rawTask := tasks[|tasks| - 1]]
  }

  /** The load-time `forEach` that fills the dictionary. */
  method LoadCache(tasks: seq<Task>) returns (cache: map<string, Task>)
    ensures cache == BuildCache(tasks)
  {
    cache := map[];
    for i := 0 to |tasks|
      invariant cache == BuildCache(tasks[..i])
    {
      assert tasks[..i + 1][..i] == tasks[..i];
      cache := cache[tasks[i].rawTask := tasks[i]];
    }
    assert tasks[..|tasks|] == tasks;
  }

  predicate DistinctLabels(tasks: seq<Task>)
  {
    forall i, j :: 0 <= i < j < |tasks| ==> tasks[i].rawTask != tasks[j].rawTask
  }

  /** With distinct labels, the dictionary holds exactly the labels, each mapped to its task. */
  lemma {:induction false} BuildCacheContents(tasks: seq<Task>)
    requires DistinctLabels(tasks)
    ensures forall l :: l in BuildCache(tasks) <==> exists i :: 0 <= i < |tasks| && tasks[i].rawTask == l
    ensures forall i :: 0 <= i < |tasks| ==> BuildCache(tasks)[tasks[i].rawTask] == tasks[i]
  {
    if tasks != [] {
      var init := tasks[..|tasks| - 1];
      BuildCacheContents(init);
      forall l ensures l in BuildCache(tasks) <==> exists i :: 0 <= i < |tasks| && tasks[i].rawTask == l {
        if l in BuildCache(init) {
          var i :| 0 <= i < |init| && init[i].rawTask == l;
          assert tasks[i].rawTask == l;
        }
        if exists i :: 0 <= i < |tasks| && tasks[i].rawTask == l {
          var i :| 0 <= i < |tasks| && tasks[i].rawTask == l;
          if i < |init| { assert init[i].rawTask == l; }
        }
      }
      forall i | 0 <= i < |tasks| ensures BuildCache(tasks)[tasks[i].rawTask] == tasks[i] {
        if i < |init| { assert init[i] == tasks[i]; }
      }
    }
  }

  /** The dictionary the module fills at load time: the result of `LoadCache(PossibleTasks)`,
      written through the function that method is proved to compute. */
  const Cache := BuildCache(PossibleTasks)

  /** The lookup as intended: the catalog task with that label, or nothing. */
  function MapFromRawTask(rawTask: string): Option<Task>
  {
    if rawTask in Cache then Some(Cache[rawTask]) else None
  }

  /** The lookup returns the catalog task whose label is given, and nothing for any other
      label. */
  lemma MapFromRawTaskSpec(rawTask: string)
    ensures MapFromRawTask(rawTask).Some? <==>
            exists i :: 0 <= i < |PossibleTasks| && PossibleTasks[i].rawTask == rawTask
    ensures forall i :: 0 <= i < |PossibleTasks| && PossibleTasks[i].rawTask == rawTask ==>
            MapFromRawTask(rawTask) == Some(PossibleTasks[i])
  {
    CatalogWellFormed();
    BuildCacheContents(PossibleTasks);
  }

  /** Property names every plain JavaScript object inherits from `Object.prototype`. */
  const ObjectPrototypeKeys: set<string> :=
    {"constructor", "__proto__", "hasOwnProperty", "isPrototypeOf", "propertyIsEnumerable",
     "toString", "toLocaleString", "valueOf", "__defineGetter__", "__defineSetter__",
     "__lookupGetter__", "__lookupSetter__"}

  /** What indexing the plain-object dictionary yields: an own entry, a member inherited
      from `Object.prototype`, or `undefined`. */
  datatype Lookup = Found(task: Task) | Inherited(name: string) | Undefined

  /** `Task.mapFromRawTask(rawTask)` as written: the dictionary is a plain object, so a
      label naming an inherited member finds that member. */
  function MapFromRawTaskAsWritten(rawTask: string): Lookup
  {
    if rawTask in Cache then Found(Cache[rawTask])
    else if rawTask in ObjectPrototypeKeys then Inherited(rawTask)
    else Undefined
  }

  /** No catalog label is an inherited property name. */
  lemma CatalogAvoidsPrototypeKeys()
    ensures forall i :: 0 <= i < |PossibleTasks| ==> PossibleTasks[i].rawTask !in ObjectPrototypeKeys
  {
    forall i | 0 <= i < |PossibleTasks| ensures PossibleTasks[i].rawTask !in ObjectPrototypeKeys {
      assert PossibleTasks[i].rawTask in ["Grocery shopping", "Picking up a prescription",
        "Transportation to/from a medical appointment", "Dog walking/petsitting", "Loneliness",
        "Accessing verified health information", "Other"];
    }
  }

  /** The lookup as written agrees with the intended one on every label that is not an
      inherited property name, and answers an inherited member instead of nothing on the
      others. */
  lemma MapFromRawTaskAsWrittenAgrees(rawTask: string)
    ensures rawTask !in ObjectPrototypeKeys ==>
              (MapFromRawTaskAsWritten(rawTask).Found? <==> MapFromRawTask(rawTask).Some?) &&
              (MapFromRawTask(rawTask).Some? ==> MapFromRawTaskAsWritten(rawTask).task == MapFromRawTask(rawTask).value) &&
              (MapFromRawTask(rawTask).None? ==> MapFromRawTaskAsWritten(rawTask) == Undefined)
    ensures rawTask in ObjectPrototypeKeys ==>
              MapFromRawTaskAsWritten(rawTask) == Inherited(rawTask) && MapFromRawTask(rawTask) == None
  {
    CatalogAvoidsPrototypeKeys();
    MapFromRawTaskSpec(rawTask);
  }

  /** The label "constructor" finds `Object` in the source's dictionary, not `undefined`. */
  lemma ConstructorLabelFindsInheritedMember()
    ensures MapFromRawTaskAsWritten("constructor") == Inherited("constructor")
    ensures MapFromRawTask("constructor") == None
  {
    MapFromRawTaskAsWrittenAgrees("constructor");
  }
}

=== FILE: volunteer_record.dfy ===
/** The volunteer wrapper around a store record: getters that delegate to the record,
    and the full postal address the geocoder is asked about. */
module VolunteerRecords {
  import opened Wrappers
  import opened Strings
  import opened Airtable
  import Config

  const AddressField := "Address"

  datatype VolunteerRecord = VolunteerRecord(airtableVolunteer: AirtableRecord)
  {
    /** `get(field)` */
    function Get(field: string): Option<FieldValue>
    {
      airtableVolunteer.Get(field)
    }

    /** `id` */
    function Id(): RecordId
    {
      airtableVolunteer.id
    }

    /** `rawFields` */
    function RawFields(): Fields
    {
      airtableVolunteer.fields
    }

    /** `fullAddress`: the street address followed by the dispatch city and state. */
    function FullAddress(): string
    {
      Display(Get(AddressField)) + " " + Config.VolunteerDispatchCity + ", " + Config.VolunteerDispatchState
    }

    /** `coordinates`: the parsed coordinate field; fails when absent or unparseable. */
    function Coordinates(): Option<Coords>
    {
      ParseCoordinates(Get(CoordinatesField))
    }

    /** `coordinatesAddress`: the address the cached coordinates were resolved from. */
    function CoordinatesAddress(): Option<FieldValue>
    {
      Get(CoordinatesAddressField)
    }
  }

  /** The suffix every full address ends with. */
  function AddressSuffix(): string
  {
    " " + Config.VolunteerDispatchCity + ", " + Config.VolunteerDispatchState
  }

  /** The getters expose the wrapped record unchanged: `get` agrees with `rawFields`,
      and `id` with `rawFields` rebuild the record. */
  lemma GettersExposeRecord(v: VolunteerRecord, field: string)
    ensures v.Get(field).Some? <==> field in v.RawFields()
    ensures v.Get(field).Some? ==> v.Get(field).value == v.RawFields()[field]
    ensures AirtableRecord(v.Id(), v.RawFields()) == v.airtableVolunteer
    ensures v.CoordinatesAddress() == v.Get(CoordinatesAddressField)
  {
  }

  /** Reading the coordinates fails when the field is absent or holds anything but
      serialised coordinates. */
  lemma CoordinatesNeedSerializedField(v: VolunteerRecord)
    ensures v.Coordinates().Some? <==>
            (CoordinatesField in v.RawFields() && v.RawFields()[CoordinatesField].SerializedCoords?)
  {
  }

  /** The full address is the interpolated street address followed by the fixed suffix. */
  lemma FullAddressShape(v: VolunteerRecord)
    ensures v.FullAddress() == Display(v.Get(AddressField)) + AddressSuffix()
    ensures |v.FullAddress()| == |Display(v.Get(AddressField))| + |AddressSuffix()|
  {
  }

  /** Two volunteers have the same full address exactly when their street addresses print
      the same, so a cache marker recorded for one address never matches another. */
  lemma FullAddressDeterminedByAddress(v: VolunteerRecord, w: VolunteerRecord)
    ensures v.FullAddress() == w.FullAddress() <==> Display(v.Get(AddressField)) == Display(w.Get(AddressField))
  {
    var a, b := Display(v.Get(AddressField)), Display(w.Get(AddressField));
    FullAddressShape(v);
    FullAddressShape(w);
    if v.FullAddress() == w.FullAddress() {
      assert |a| == |b|;
      assert a == v.FullAddress()[..|a|] == w.FullAddress()[..|b|] == b;
    }
  }

  /** A full address is never blank after trimming: it always contains a comma. */
  lemma FullAddressNotBlank(v: VolunteerRecord)
    ensures |Trim(v.FullAddress())| > 0
  {
    var a := Display(v.Get(AddressField));
    var s := v.FullAddress();
    assert s[|a| + 1 + |Config.VolunteerDispatchCity|] == ',';
    TrimEmptyIff(s);
  }
}

=== FILE: volunteer_service.dfy ===
/** The volunteer service: coordinate resolution for volunteers, and the random sample of
    volunteers who can take on loneliness-related tasks. */
module VolunteerServices {
  import opened Wrappers
  import opened Airtable
  import opened Collaborators
  import opened CoordinateResolution
  import opened Tasks
  import opened VolunteerRecords
  import Config

  /** Most volunteers sampled for loneliness outreach. */
  const MaxLonelinessSample: nat := 10

  /** The error the success path of the volunteer refresh raises: the result is built with
      a class the service never imports. */
  const MissingRequestRecord := ReferenceError("RequestRecord")

  /** The result the volunteer refresh reports as written: refresh failures pass through,
      and a successful refresh ends in the missing-import error. */
  function AsWrittenResult(refreshed: Result<AirtableRecord, Error>): Result<VolunteerRecord, Error>
  {
    match refreshed
    case Success(_) => Failure(MissingRequestRecord)
    case Failure(e) => Failure(e)
  }

  /** The store record behind a service result. */
  function Unwrapped(r: Result<VolunteerRecord, Error>): Result<AirtableRecord, Error>
  {
    match r
    case Success(v) => Success(v.airtableVolunteer)
    case Failure(e) => Failure(e)
  }

  /** The guard applied to a volunteer. */
  predicate VolunteerCacheIsValid(v: VolunteerRecord)
  {
    CacheIsValid(v.Coordinates(), v.CoordinatesAddress(), v.FullAddress())
  }

  /** Once the street address changes, the marker recorded for the old address no longer
      passes the guard, so the coordinates are resolved again. */
  lemma ChangedAddressForcesRefresh(v: VolunteerRecord, previous: VolunteerRecord)
    requires v.CoordinatesAddress() == Some(Text(previous.FullAddress()))
    requires Display(v.Get(AddressField)) != Display(previous.Get(AddressField))
    ensures !VolunteerCacheIsValid(v)
  {
    FullAddressDeterminedByAddress(v, previous);
    FullAddressNotBlank(previous);
  }

  /** A successful refresh of a volunteer read from the store leaves a record whose full
      address is unchanged and which passes the guard: resolving it again makes no call. */
  lemma RefreshedVolunteerIsCached(s: StoreState, calls: seq<Call>, v: VolunteerRecord, table: string,
                                   r: Result<AirtableRecord, Error>)
    requires v.Id() in s.records && s.records[v.Id()] == v.RawFields()
    requires IsRefresh(s, calls, v.Id(), v.FullAddress(), table, r)
    requires r.Success?
    ensures VolunteerRecord(r.value).Id() == v.Id()
    ensures VolunteerRecord(r.value).FullAddress() == v.FullAddress()
    ensures VolunteerCacheIsValid(VolunteerRecord(r.value))
  {
    RefreshFillsCache(s, calls, v.Id(), v.FullAddress(), table, r);
    assert r.value.Get(AddressField) == v.Get(AddressField);
  }

  /** As written, a refresh whose update succeeded is still reported as a failure,
      although the store already holds the new coordinates for the volunteer. */
  lemma AsWrittenLosesCommittedUpdate(s: StoreState, calls: seq<Call>, v: VolunteerRecord,
                                      refreshed: Result<AirtableRecord, Error>)
    requires IsRefresh(s, calls, v.Id(), v.FullAddress(), Config.RequestsTableName, refreshed)
    requires refreshed.Success?
    ensures AsWrittenResult(refreshed) == Failure(MissingRequestRecord)
    ensures v.Id() in Run(s, calls).records
    ensures RecordCacheIsValid(AirtableRecord(v.Id(), Run(s, calls).records[v.Id()]), v.FullAddress())
  {
    RefreshStoreEffect(s, calls, v.Id(), v.FullAddress(), Config.RequestsTableName, refreshed);
    RefreshFillsCache(s, calls, v.Id(), v.FullAddress(), Config.RequestsTableName, refreshed);
  }

  /** As written, a failed volunteer refresh files its audit row under the requests table,
      not the volunteers table the record belongs to. */
  lemma AsWrittenAuditsRequestsTable(s: StoreState, calls: seq<Call>, v: VolunteerRecord,
                                     refreshed: Result<AirtableRecord, Error>)
    requires IsRefresh(s, calls, v.Id(), v.FullAddress(), Config.RequestsTableName, refreshed)
    requires refreshed.Failure?
    ensures |calls| >= 1 && calls[|calls| - 1].LogErrorToTable?
    ensures calls[|calls| - 1].table == Config.RequestsTableName != Config.VolunteersTableName
  {
    RefreshFailureAudited(s, calls, v.Id(), v.FullAddress(), Config.RequestsTableName, refreshed);
  }

  /** As intended, the service's answer is what the store holds afterwards: the updated
      volunteer on success, an unchanged store on failure, and every failure audited under
      the volunteers table. */
  lemma IntendedResultMatchesStore(s: StoreState, calls: seq<Call>, v: VolunteerRecord,
                                   r: Result<VolunteerRecord, Error>)
    requires IsRefresh(s, calls, v.Id(), v.FullAddress(), Config.VolunteersTableName, Unwrapped(r))
    ensures r.Success? ==> v.Id() in Run(s, calls).records && Run(s, calls).records[v.Id()] == r.value.RawFields()
    ensures r.Failure? ==> Run(s, calls) == s
    ensures r.Failure? ==> |calls| >= 1 && calls[|calls| - 1].LogErrorToTable? &&
                           calls[|calls| - 1].table == Config.VolunteersTableName
  {
    RefreshStoreEffect(s, calls, v.Id(), v.FullAddress(), Config.VolunteersTableName, Unwrapped(r));
    if r.Failure? {
      RefreshFailureAudited(s, calls, v.Id(), v.FullAddress(), Config.VolunteersTableName, Unwrapped(r));
    }
  }

  /** The volunteers that can fulfil the loneliness task, in their original order. */
  function LonelinessVolunteers(volunteers: seq<AirtableRecord>): seq<AirtableRecord>
  {
    if volunteers == [] then []
    else
      var last := volunteers[|volunteers| - 1];
      LonelinessVolunteers(volunteers[..|volunteers| - 1]) +
        (if CanBeFulfilledByVolunteer(Loneliness, last) then [last] else [])
  }

  /** The selection keeps exactly the eligible volunteers, each as often as it occurs. */
  lemma {:induction false} LonelinessVolunteersSpec(volunteers: seq<AirtableRecord>)
    ensures forall i :: 0 <= i < |LonelinessVolunteers(volunteers)| ==>
              CanBeFulfilledByVolunteer(Loneliness, LonelinessVolunteers(volunteers)[i])
    ensures forall v :: multiset(LonelinessVolunteers(volunteers))[v] ==
              if CanBeFulfilledByVolunteer(Loneliness, v) then multiset(volunteers)[v] else 0
  {
    if volunteers != [] {
      var init := volunteers[..|volunteers| - 1];
      LonelinessVolunteersSpec(init);
      assert volunteers == init + [volunteers[|volunteers| - 1]];
    }
  }

  /** Selecting page by page is selecting over all pages. */
  lemma {:induction false} LonelinessVolunteersAppend(a: seq<AirtableRecord>, b: seq<AirtableRecord>)
    ensures LonelinessVolunteers(a + b) == LonelinessVolunteers(a) + LonelinessVolunteers(b)
    decreases |b|
  {
    if b != [] {
      var init := b[..|b| - 1];
      assert (a + b)[..|a + b| - 1] == a + init;
      LonelinessVolunteersAppend(a, init);
    } else {
      assert a + b == a;
    }
  }

  /** The caller's array that the page callback appends to. */
  class VolunteerList {
    var items: seq<AirtableRecord>

    constructor ()
      ensures items == []
    {
      items := [];
    }
  }

  class VolunteerService {
    const backend: Backend
    const random: Random

    constructor (backend: Backend)
      ensures this.backend == backend && fresh(random)
    {
      this.backend := backend;
      random := new Random();
    }

    /** `resolveAndUpdateCoords(volunteer)` as written: failures are logged to the requests
        table, and a successful refresh, although committed to the store, ends in an error. */
    method ResolveAndUpdateCoords(volunteer: VolunteerRecord) returns (r: Result<VolunteerRecord, Error>)
      requires backend.Valid()
      modifies backend
      ensures backend.Valid()
      ensures |old(backend.trace)| <= |backend.trace| && backend.trace[..|old(backend.trace)|] == old(backend.trace)
      ensures VolunteerCacheIsValid(volunteer) ==>
                r == Success(volunteer) && backend.trace == old(backend.trace) && backend.state == old(backend.state)
      ensures !VolunteerCacheIsValid(volunteer) ==>
                r.Failure? &&
                backend.state == Run(old(backend.state), backend.trace[|old(backend.trace)|..]) &&
                exists refreshed :: r == AsWrittenResult(refreshed) &&
                  IsRefresh(old(backend.state), backend.trace[|old(backend.trace)|..], volunteer.Id(),
                            volunteer.FullAddress(), Config.RequestsTableName, refreshed)
    {
      if VolunteerCacheIsValid(volunteer) {
        return Success(volunteer);
      }
      var updatedRecord := Refresh(backend, volunteer.Id(), volunteer.FullAddress(), Config.RequestsTableName);
      r := AsWrittenResult(updatedRecord);
    }

    /** `resolveAndUpdateCoords(volunteer)` as evidently intended: failures are logged to the
        volunteers table, and a successful refresh returns the updated volunteer. */
    method ResolveAndUpdateCoordsIntended(volunteer: VolunteerRecord) returns (r: Result<VolunteerRecord, Error>)
      requires backend.Valid()
      modifies backend
      ensures backend.Valid()
      ensures |old(backend.trace)| <= |backend.trace| && backend.trace[..|old(backend.trace)|] == old(backend.trace)
      ensures VolunteerCacheIsValid(volunteer) ==>
                r == Success(volunteer) && backend.trace == old(backend.trace) && backend.state == old(backend.state)
      ensures !VolunteerCacheIsValid(volunteer) ==>
                IsRefresh(old(backend.state), backend.trace[|old(backend.trace)|..], volunteer.Id(),
                          volunteer.FullAddress(), Config.VolunteersTableName, Unwrapped(r)) &&
                backend.state == Run(old(backend.state), backend.trace[|old(backend.trace)|..])
    {
      if VolunteerCacheIsValid(volunteer) {
        return Success(volunteer);
      }
      var updatedRecord := Refresh(backend, volunteer.Id(), volunteer.FullAddress(), Config.VolunteersTableName);
      match updatedRecord
      case Success(u) => r := Success(VolunteerRecord(u));
      case Failure(e) => r := Failure(e);
    }

    /** The page callback `appendVolunteersForLoneliness(lonelinessVolunteers)` applied to one
        page: appends the page's eligible volunteers in page order, then asks for the next page. */
    method AppendVolunteersForLoneliness(lonelinessVolunteers: VolunteerList, volunteers: seq<AirtableRecord>)
      requires backend.Valid()
      modifies lonelinessVolunteers, backend
      ensures backend.Valid() && backend.state == old(backend.state)
      ensures backend.trace == old(backend.trace) + [NextPage]
      ensures lonelinessVolunteers.items == old(lonelinessVolunteers.items) + LonelinessVolunteers(volunteers)
    {
      for i := 0 to |volunteers|
        invariant backend.Valid() && backend.state == old(backend.state) && backend.trace == old(backend.trace)
        invariant lonelinessVolunteers.items ==
                  old(lonelinessVolunteers.items) + LonelinessVolunteers(volunteers[..i])
      {
        assert volunteers[..i + 1][..i] == volunteers[..i];
        if CanBeFulfilledByVolunteer(Loneliness, volunteers[i]) {
          lonelinessVolunteers.items := lonelinessVolunteers.items + [volunteers[i]];
        }
      }
      assert volunteers[..|volunteers|] == volunteers;
      backend.NextPage();
    }

    /** `findVolunteersForLoneliness()`, over the pages the store's query returns: at most
        ten volunteers, drawn without replacement from those eligible. */
    method FindVolunteersForLoneliness(pages: seq<seq<AirtableRecord>>) returns (sample: seq<AirtableRecord>)
      requires backend.Valid()
      modifies backend
      ensures backend.Valid() && backend.state == old(backend.state)
      ensures backend.trace == old(backend.trace) + NextPages(|pages|)
      ensures |sample| == if |LonelinessVolunteers(Flatten(pages))| > MaxLonelinessSample
                          then MaxLonelinessSample else |LonelinessVolunteers(Flatten(pages))|
      ensures multiset(sample) <= multiset(LonelinessVolunteers(Flatten(pages)))
    {
      var lonelinessVolunteers := new VolunteerList();
      for p := 0 to |pages|
        invariant backend.Valid() && backend.state == old(backend.state)
        invariant backend.trace == old(backend.trace) + NextPages(p)
        invariant lonelinessVolunteers.items == LonelinessVolunteers(Flatten(pages[..p]))
      {
        LonelinessVolunteersAppend(Flatten(pages[..p]), pages[p]);
        AppendVolunteersForLoneliness(lonelinessVolunteers, pages[p]);
        assert pages[..p + 1][..p] == pages[..p];
        assert NextPages(p + 1) == NextPages(p) + [NextPage];
      }
      assert pages[..|pages|] == pages;
      var sampleSize := if |lonelinessVolunteers.items| > MaxLonelinessSample then MaxLonelinessSample
                        else |lonelinessVolunteers.items|;
      sample := random.Sample(lonelinessVolunteers.items, sampleSize);
    }
  }
}

=== FILE: wrappers.dfy ===
/** Failure-carrying values used throughout the model: a JavaScript `undefined`
    becomes `None`, a thrown error becomes `Failure`/`Fail`. */
module Wrappers {

  datatype Option<+T> = None | Some(value: T)

  datatype Result<+T, +E> = Success(value: T) | Failure(error: E)

  /** The outcome of an operation that returns nothing on success. */
  datatype Outcome<+E> = Pass | Fail(error: E)
}
